=== FILE: README.md ===
# Cafeteria profit dashboard — a Dafny model

This project models the logic of a small cafeteria dashboard. Staff sign in and
record online revenue, cash revenue and expenses. The dashboard shows monthly
summaries of these transactions. The model covers four pieces:

- **Login check** (`AuthRoute`). A pure decision function. It first tries an
  optional username/password pair taken from the environment, then a fixed
  two-account table (`manager`, `staff`). When the pair does not match, the
  check falls through to the table.
- **Transaction store** (`SalesRoute`). The data file is modelled as
  `Disk(file: Option<DataFile>, writable: bool)`.
  - `EnsureDataFile` creates the file lazily, holding an empty list.
  - `Get` lists the stored sales newest first. It turns every failure into an
    empty list.
  - `Post` copies the body into a new record with a fresh id and the current
    time, and appends it.
- **Monthly report** (`MonthlySummary`).
  - `Buckets` is the single-pass fold into month buckets, kept in
    first-appearance order.
  - `Summarize` sorts those buckets by their month label, as text.
  - The fold is proved against an independent reference: `Expected`, built from
    per-type sums (`KindTotal`).
- **Dashboard and form** (`Dashboard`, `TransactionForm`).
  - The headline month and its `"Current"` fallback.
  - The profit-margin guard.
  - The local list update after adding a transaction.
  - The form's ordered validation messages, its submit and its reset.

Support modules:

- `Sales`: the `Sale` record.
- `Http`: a response as a status code plus a payload.
- `Calendar`: month keys, and labels in the form "Mon YYYY" or "Invalid Date".
- `LexOrder`: character-by-character string order, which stands in for
  `localeCompare`.
- `Sorting`: a stable insertion sort, proved to return a sorted permutation.
- `Wrappers`: `Option`.

Outside effects are parameters:

- **Date parsing and time zone.** `monthOf: string -> MonthKey`.
  `Calendar.IsoMonth` is one concrete instance, used by the examples. It reads
  the "YYYY-MM" prefix, which is what `Date` gives for a well-formed ISO date in
  the UTC time zone. It does not check the day, so a malformed tail that `Date`
  rejects still gets a month.
- **JavaScript `Number` and `parseFloat`.** `toNumber` and `parseFloat`,
  both `string -> Num`.
- **The clock.** `now: int` in milliseconds, or `today: string`.
- **UUID generation.** An `id` argument that `Post` requires to be unused in
  the data file.
- **Environment variables.** An `Env` value.
- **File-system outcomes.** The `Disk` value.

Three behaviours of the code that a reader might not expect:

- Monthly rows are sorted by label text (components/dashboard.tsx:101), not by
  date. They are evidently meant to be in calendar order: the bucket key is a
  zero-padded year-month, and the headline is meant to be the latest month. See
  Findings.
- The configured pair does not shadow a built-in account with the same
  username. The code tries the pair first, then falls through to the built-in
  table (app/api/auth/route.ts:22-35). `AuthRoute.OverrideDoesNotShadowBuiltIn`
  shows both passwords being accepted.
- For four transactions in January and February 2024, the February row comes
  first, because "Feb" sorts before "Jan" (`MonthlySummary.TwoMonthExample`).

## Model

| member | source | states |
|---|---|---|
| `Calendar.LabelInjective` | components/dashboard.tsx:75-76 | distinct month keys get distinct labels, so label order never ties two buckets |
| `Sorting.SortBy` | app/api/sales/route.ts:24-26 | the sort returns a permutation of its input in which each element may precede the next |
| `MonthlySummary.AddSale` | components/dashboard.tsx:89-98 | adding a transaction keeps the label, adds its amount to exactly the field its type selects (none for an unknown type), and leaves the row balanced: total = online + cash, profit = total − expenses |
| `MonthlySummary.StepChangesOnlyItsMonth` | components/dashboard.tsx:73-98 | one loop iteration touches only the transaction's month: that month's existing bucket gets the transaction added, or a new bucket (zero plus the transaction) is appended; every other bucket keeps its place and contents |
| `MonthlySummary.ExpectedStep` | components/dashboard.tsx:78-98 | folding in one more transaction changes only its own month: that month starts at all zeros when new, gets the amount in the field its type selects, and has total and profit recomputed |
| `MonthlySummary.Buckets` | components/dashboard.tsx:71-99 | the fold yields exactly one bucket per distinct month among the dates, and each bucket holds that month's per-type sums with total = online + cash and profit = total − expenses |
| `MonthlySummary.StepPreserves` | components/dashboard.tsx:73-99 | one iteration of the `forEach` body turns correct buckets for a prefix into correct buckets for the prefix plus one transaction |
| `MonthlySummary.SortedByLabel` | components/dashboard.tsx:101 | sorting the buckets by label keeps them all and orders them strictly by label text |
| `MonthlySummary.Summarize` | components/dashboard.tsx:70-102 | the report has one row per distinct month; every row is that month's reference summary; every row is balanced; rows are strictly ascending by label string, not by date |
| `MonthlySummary.UnrecognisedTypeOnlyOpensMonth` | components/dashboard.tsx:78-95 | a transaction whose type is none of the three opens its month's bucket (at zero if new) and changes no amount in any month |
| `MonthlySummary.KindTotalPermutation` | components/dashboard.tsx:89-95 | each per-type sum depends only on the multiset of transactions |
| `MonthlySummary.SummarizeIgnoresOrder` | components/dashboard.tsx:73-101 | storing the same transactions in any order yields the identical report |
| `MonthlySummary.TwoMonthExample` | components/dashboard.tsx:70-102 | for four transactions in January and February 2024 the report is Feb 2024 {200, 0, 200, 0, 200} followed by Jan 2024 {100, 50, 150, 30, 120} |
| `MonthlySummary.ChronologicalBuckets` | components/dashboard.tsx:75 | corrected ordering: the buckets sorted by their year-month key, strictly increasing in calendar order |
| `MonthlySummary.SummarizeChronological` | components/dashboard.tsx:101 | corrected report: the same number of rows as `Summarize` and exactly the same rows |
| `MonthlySummary.ChronologicalRowsInOrder` | components/dashboard.tsx:101 | corrected report: the rows are the summaries of a list of months present that increases strictly in calendar order |
| `MonthlySummary.ChronologicalEndsWithLatest` | components/dashboard.tsx:101 | in the corrected report the last row is the latest month's summary |
| `Dashboard.CurrentMonth` | components/dashboard.tsx:119-126 | the headline is the last row, or a row labelled "Current" with all five amounts zero when there are no rows |
| `Dashboard.CurrentMonthHasGreatestLabel` | components/dashboard.tsx:119 | with any transactions, the headline month is a row of the report and its label sorts after every other row's label |
| `Dashboard.CurrentMonthFallback` | components/dashboard.tsx:119-126 | the all-zero row labelled "Current" is shown exactly when there are no transactions |
| `Dashboard.CurrentMonthNotLatest` | components/dashboard.tsx:101-119 | with transactions in Sep 2023 and Jan 2024, the headline month is Sep 2023 though Jan 2024 is later |
| `Dashboard.HeadlineOfTwoMonths` | components/dashboard.tsx:101-119 | with exactly two months present, the headline is the month whose label sorts last as text |
| `Dashboard.CurrentMonthIsLatest` | components/dashboard.tsx:119 | with the corrected report, the headline month is the latest month present |
| `Dashboard.ProfitMargin` | components/dashboard.tsx:133-134 | the margin is 0 when total revenue is not positive; otherwise margin × revenue = profit × 100, so there is no division by zero |
| `Dashboard.MarginBounds` | components/dashboard.tsx:133-134 | for a balanced row with revenue, the margin is at most 100 when expenses are non-negative, and non-negative exactly when expenses do not exceed revenue |
| `Dashboard.RequestBody` | components/dashboard.tsx:109 | the posted body carries the form's date, type, amount and description and `addedBy` = the signed-in user's name |
| `Dashboard.AppendReplyAsWritten` | components/dashboard.tsx:111-112 | as written: any received reply appends one entry after the old list, which is unchanged; that entry is defined exactly when the reply carries a sale, and is then that sale |
| `Dashboard.FailedSaveAppendsUndefined` | components/dashboard.tsx:111-112 | when the API cannot save, the list update as written appends `undefined` |
| `Dashboard.AppendReply` | components/dashboard.tsx:112 | corrected update: a 201 reply's sale is appended at the end; any other outcome leaves the list unchanged |
| `Dashboard.ClientMirrorsStore` | components/dashboard.tsx:104-117 | corrected update (`AppendReply`): if the local list was a multiset copy of the stored sales, it still is after an add, saved or not; a saved record carries the user's name |
| `SalesRoute.EnsureDataFile` | app/api/sales/route.ts:8-16 | the call completes iff the file exists or can be written; an existing file is untouched; a missing one is created holding an empty list |
| `SalesRoute.SortNewestFirst` | app/api/sales/route.ts:24-26 | the listed sales are a permutation of the stored ones, with timestamps non-increasing |
| `SalesRoute.Get` | app/api/sales/route.ts:18-31 | GET always answers 200; it lists the stored sales newest first, or an empty list when the file cannot be created, read or parsed; it changes the disk only by the lazy creation |
| `SalesRoute.FreshStoreListsNothing` | app/api/sales/route.ts:8-30 | a store that does not exist yet lists nothing, and GET creates it empty when it can |
| `SalesRoute.GetIsIdempotent` | app/api/sales/route.ts:18-31 | the sort is never written back: a second GET sees the same disk and gives the same answer |
| `SalesRoute.NewSale` | app/api/sales/route.ts:38-46 | the new record copies date, type, amount, description and `addedBy` from the body unchecked, and takes the drawn id and the current time |
| `SalesRoute.Post` | app/api/sales/route.ts:33-57 | POST answers 201 iff the body parsed, the file is writable and is missing or usable; it then stores the old list plus the new record and returns that record; otherwise it answers 500 "Failed to save transaction" and leaves the list as it was |
| `SalesRoute.PostAppends` | app/api/sales/route.ts:48-51 | after a successful POST, earlier records keep their positions and contents, the new record follows them, and ids stay unique |
| `SalesRoute.ListAfterPost` | app/api/sales/route.ts:48-53 | after a successful POST, GET lists the earlier sales plus the new one, newest first |
| `SalesRoute.PostAllAppends` | app/api/sales/route.ts:48-51 | a run of N successful POSTs leaves the old list followed by the N new records, in posting order |
| `AuthRoute.Authenticate` | app/api/auth/route.ts:14-44 | an unreadable body gives 500 "Authentication failed"; otherwise the answer is 200 iff the configured pair matches or a built-in account matches; the name is the submitted username for the pair, else the account's stored name; every other case is 401 "Invalid credentials" |
| `AuthRoute.BuiltInEntriesMatchTable` | app/api/auth/route.ts:3-12 | a first-match search over the two built-in entries agrees with the `USERS` table |
| `AuthRoute.AuthenticateIsFirstMatch` | app/api/auth/route.ts:18-40 | the login check equals a first-match search over the ordered account list: the configured pair first, then the built-in accounts |
| `AuthRoute.BuiltInAccountsAlwaysAccepted` | app/api/auth/route.ts:31-40 | a built-in account with its password is accepted whatever the environment holds, under its stored name unless the pair itself matched |
| `AuthRoute.OverrideDoesNotShadowBuiltIn` | app/api/auth/route.ts:22-40 | with the pair manager/secret configured, manager/pass123 still signs in as "Manager", and manager/secret signs in as "manager" |
| `AuthRoute.FailuresLookAlike` | app/api/auth/route.ts:32-35 | an unknown user and a wrong password get the identical response |
| `AuthRoute.InactiveOverrideIgnored` | app/api/auth/route.ts:19-22 | when either variable is missing or empty, the environment plays no part |
| `TransactionForm.Validate` | components/add-transaction-form.tsx:30-34 | each message is present exactly when its check fails; the messages come in the fixed order required, date, greater than 0, with no repeats |
| `TransactionForm.HandleSubmit` | components/add-transaction-form.tsx:28-55 | the form submits iff there are no messages; on messages it keeps its fields and shows them; on submit it hands over date, type and description unchanged with the parsed amount, then resets |
| `TransactionForm.EmptyAmountReportedTwice` | components/add-transaction-form.tsx:32-34 | `handleSubmit` called directly with an empty amount yields both "Amount is required" and "Amount must be greater than 0", because `Number("")` is 0 |
| `TransactionForm.NonNumericAmountPasses` | components/add-transaction-form.tsx:34 | `handleSubmit` called directly with an amount that reads as NaN, and a date, raises no message, because NaN ≤ 0 is false |
| `TransactionForm.SubmissionsPassedChecks` | components/add-transaction-form.tsx:36-46 | whatever is submitted had an amount, a date and an amount that is not at most zero |
| `TransactionForm.ResetFormCannotBeResubmitted` | components/add-transaction-form.tsx:48-54 | `handleSubmit` applied to the reset form (online-revenue type, empty amount and description) submits nothing, keeps the fields and stores "Amount is required" first and "Amount must be greater than 0" |

## Findings

| source | as written | input that shows it | evidently intended | confidence | as-written member | corrected member |
|---|---|---|---|---|---|---|
| components/dashboard.tsx:101 | rows are sorted by their label with `localeCompare`, and the headline month (line 119) is the last row | one transaction dated 2023-09-14 and one dated 2024-01-03: rows come out "Jan 2024", "Sep 2023", so the headline month is Sep 2023 | rows in calendar order by the zero-padded `monthKey`, with the latest month last | high; not executed | `MonthlySummary.Summarize`, `Dashboard.CurrentMonthNotLatest` | `MonthlySummary.SummarizeChronological`, `Dashboard.CurrentMonthIsLatest` |
| components/dashboard.tsx:111-112 | `data.sale` is appended whatever the response status | a POST that fails (for example, the data file holds invalid JSON) answers 500 `{message}`, so `undefined` is appended and the next report reads `t.date` of `undefined` | append only when the API answered 201 with a sale | high; not executed | `Dashboard.AppendReplyAsWritten`, `Dashboard.FailedSaveAppendsUndefined` | `Dashboard.AppendReply`, `Dashboard.ClientMirrorsStore` |

## Left out

- Rendering: the JSX, charts, icons and styling; the `showForm` and `isLoading` flags; the reversed table order in components/transaction-table.tsx. These are display only.
- The browser's native constraint checks on the form's inputs. The date input is `type="date"` and `required` (components/add-transaction-form.tsx:75-79). The amount input is `type="number"`, `min="0"` and `required` (:101-108), and the form has no `noValidate`. In a browser these stop the submit for an empty date, an empty or negative amount, or non-numeric text (which a number input turns into ""), so `handleSubmit` never runs and the browser shows its own prompt. `TransactionForm` models `handleSubmit` called directly on the form's state. Its lemmas about empty, NaN or reset amounts describe that handler, not what the page displays.
- `loadTransactions`, components/login-page.tsx and app/page.tsx. They are a `fetch`, a fallback to an empty list, and a signed-in/signed-out toggle, with no further logic.
- HTTP, `fetch`, `NextResponse`, `fs/promises` and `path`. A response is a status plus a payload. The disk is "file present or not" plus one flag for whether writes succeed. Reading a file that exists is taken to succeed.
- JSON parsing and serialisation. An unreadable body is `None`. A file that is not JSON, or lacks a `sales` list, is `Unusable`. Missing or non-string body fields, and amounts that serialise to `null` (NaN, Infinity), are not modelled.
- Body fields of the wrong JSON type. The route copies `amount` unchecked (app/api/sales/route.ts:42), so a string amount is stored, and the report's `+=` (components/dashboard.tsx:90) would then concatenate strings. The model types `amount` as a real, so it does not model this.
- UUID generation (section 4.4 of RFC 4122). It is a fresh-id argument that `Post` requires to be unused in the file.
- The clock. `now` is the receipt time in milliseconds. The ISO timestamp string and its re-parsing in GET's comparator are not modelled, so unparseable timestamps are not either.
- JavaScript `Date` parsing and the time-zone-dependent `getMonth`/`getFullYear`. These are the `monthOf` parameter. Years are natural numbers; dates before year 0 are not modelled.
- `localeCompare` is modelled as character-code order. Under English collation the two agree for labels of the form "Mon YYYY" and "Invalid Date". `localeCompare` without a locale argument uses the browser's default locale; other collations are not modelled.
- Floating-point amounts. Amounts are exact reals, so sums do not depend on addition order. `toFixed(1)` formatting of the margin is not modelled.
- The lost-update race between concurrent POSTs. The model is sequential.
- JavaScript prototype-key lookups in `USERS[username]`. `USERS` is a finite map from names to accounts.
- SalesRoute.Get: does not state the order of sales with equal timestamps. The model's insertion sort, like the array sort, keeps them in file order, but this is not proved.
- Dashboard.ProfitMargin: states the unrounded margin; the one-decimal string that `toFixed(1)` produces is not modelled.

=== FILE: auth_route.dfy ===
/** The login check: an optional account configured through the environment,
    tried first, then a fixed table of two accounts. */
module AuthRoute {
  import opened Wrappers
  import opened Http

  datatype Account = Account(password: string, name: string)

  /** The built-in accounts, by username. */
  const Users: map<string, Account> := map[
    "manager" := Account("pass123", "Manager"),
    "staff" := Account("pass456", "Staff Member")]

  /** The `AUTH_USERNAME` and `AUTH_PASSWORD` environment variables. */
  datatype Env = Env(authUsername: Option<string>, authPassword: Option<string>)

  /** The fields of a login request body. */
  datatype Credentials = Credentials(username: string, password: string)

  const InvalidCredentials: string := "Invalid credentials"
  const AuthenticationFailed: string := "Authentication failed"

  /** A variable counts as set when it is present and not empty (JavaScript truthiness). */
  predicate IsSet(v: Option<string>) {
    v.Some? && v.value != ""
  }

  predicate OverrideActive(env: Env) {
    IsSet(env.authUsername) && IsSet(env.authPassword)
  }

  /** Both submitted values equal the configured pair. */
  predicate OverrideMatches(env: Env, c: Credentials) {
    OverrideActive(env) && c.username == env.authUsername.value && c.password == env.authPassword.value
  }

  /** The username is a built-in account and the password is its password. */
  predicate StaticMatches(c: Credentials) {
    c.username in Users && Users[c.username].password == c.password
  }

  /** `POST /api/auth`.  `body` is None when the request body cannot be read as
      JSON.  The configured pair is tried first and, when it does not match, the
      built-in table is consulted: the pair never hides a built-in account. */
  function Authenticate(env: Env, body: Option<Credentials>): (r: Response)
    ensures body.None? ==> r == Response(500, Message(AuthenticationFailed))
    ensures body.Some? ==> (r.status == 200 <==> OverrideMatches(env, body.value) || StaticMatches(body.value))
    ensures body.Some? && OverrideMatches(env, body.value) ==>
      r == Response(200, Authenticated(body.value.username))
    ensures body.Some? && !OverrideMatches(env, body.value) && StaticMatches(body.value) ==>
      r == Response(200, Authenticated(Users[body.value.username].name))
    ensures body.Some? && r.status != 200 ==> r == Response(401, Message(InvalidCredentials))
  {
    match body
    case None => Response(500, Message(AuthenticationFailed))
    case Some(c) =>
      if OverrideActive(env) && c.username == env.authUsername.value && c.password == env.authPassword.value then
        Response(200, Authenticated(c.username))
      else if c.username !in Users || Users[c.username].password != c.password then
        Response(401, Message(InvalidCredentials))
      else
        Response(200, Authenticated(Users[c.username].name))
  }

  // ---------------------------------------------------------------------------
  // Reference: the accounts as one list tried in order.
  // ---------------------------------------------------------------------------

  datatype Entry = Entry(username: string, password: string, name: string)

  /** The accounts in the order they are tried: the configured pair, named after
      its own username, when both variables are set; then the two built-in accounts. */
  function LookupOrder(env: Env): seq<Entry> {
    (if OverrideActive(env) then [Entry(env.authUsername.value, env.authPassword.value, env.authUsername.value)] else [])
    + [Entry("manager", "pass123", "Manager"), Entry("staff", "pass456", "Staff Member")]
  }

  /** The display name of the first entry whose username and password both match. */
  function FirstMatch(entries: seq<Entry>, c: Credentials): Option<string> {
    if |entries| == 0 then None
    else if entries[0].username == c.username && entries[0].password == c.password then Some(entries[0].name)
    else FirstMatch(entries[1..], c)
  }

  /** The two built-in entries of the list agree with the table. */
  lemma BuiltInEntriesMatchTable(c: Credentials)
    ensures var statics := [Entry("manager", "pass123", "Manager"), Entry("staff", "pass456", "Staff Member")];
      FirstMatch(statics, c) == if StaticMatches(c) then Some(Users[c.username].name) else None
  {
    var statics := [Entry("manager", "pass123", "Manager"), Entry("staff", "pass456", "Staff Member")];
    assert statics[1..] == [Entry("staff", "pass456", "Staff Member")];
    assert statics[1..][1..] == [];
    assert FirstMatch(statics[1..], c) == if c == Credentials("staff", "pass456") then Some("Staff Member") else None;
    assert Users.Keys == {"manager", "staff"};
    if c.username == "manager" {
      assert Users[c.username] == Account("pass123", "Manager");
    } else if c.username == "staff" {
      assert Users[c.username] == Account("pass456", "Staff Member");
    } else {
      assert c.username !in Users;
    }
  }

  /** The login check is a first-match search over the ordered account list. */
  lemma AuthenticateIsFirstMatch(env: Env, c: Credentials)
    ensures Authenticate(env, Some(c)) ==
      match FirstMatch(LookupOrder(env), c)
      case Some(name) => Response(200, Authenticated(name))
      case None => Response(401, Message(InvalidCredentials))
  {
    var statics := [Entry("manager", "pass123", "Manager"), Entry("staff", "pass456", "Staff Member")];
    BuiltInEntriesMatchTable(c);
    if OverrideActive(env) {
      assert LookupOrder(env)[1..] == statics;
    } else {
      assert LookupOrder(env) == statics;
    }
  }

  // ---------------------------------------------------------------------------
  // Properties.
  // ---------------------------------------------------------------------------

  /** A built-in account with its password is accepted whatever the environment holds. */
  lemma BuiltInAccountsAlwaysAccepted(env: Env, c: Credentials)
    requires StaticMatches(c)
    ensures Authenticate(env, Some(c)).status == 200
    ensures !OverrideMatches(env, c) ==> Authenticate(env, Some(c)).body.name == Users[c.username].name
  {
  }

  /** Configuring the pair "manager" / "secret" does not lock out the built-in manager
      account: both passwords are accepted, under different display names. */
  lemma OverrideDoesNotShadowBuiltIn()
    ensures var env := Env(Some("manager"), Some("secret"));
      && Authenticate(env, Some(Credentials("manager", "pass123"))) == Response(200, Authenticated("Manager"))
      && Authenticate(env, Some(Credentials("manager", "secret"))) == Response(200, Authenticated("manager"))
  {
  }

  /** An unknown user and a wrong password get the same answer, so a caller cannot
      tell which usernames exist. */
  lemma FailuresLookAlike(env: Env, c1: Credentials, c2: Credentials)
    requires Authenticate(env, Some(c1)).status != 200
    requires Authenticate(env, Some(c2)).status != 200
    ensures Authenticate(env, Some(c1)) == Authenticate(env, Some(c2))
  {
  }

  /** When either variable is missing or empty the environment plays no part. */
  lemma InactiveOverrideIgnored(env: Env, body: Option<Credentials>)
    requires !OverrideActive(env)
    ensures Authenticate(env, body) == Authenticate(Env(None, None), body)
  {
  }
}

=== FILE: calendar.dfy ===
/** Calendar months as the dashboard groups transactions by them.

    The dashboard turns a transaction's date string into a JavaScript `Date` and
    reads its year and month; the bucket key is "YYYY-MM" and the display label is
    the en-US short form "Mon YYYY".  An unparseable date yields the key "NaN-NaN"
    and the label "Invalid Date". */
module Calendar {

  type MonthNumber = m: int | 1 <= m <= 12 witness 1

  /** The year and month a date falls in, or the single bucket of unparseable dates. */
  datatype MonthKey = YearMonth(year: nat, month: MonthNumber) | InvalidDate

  /** The en-US short month name. */
  function Abbrev(m: MonthNumber): (r: string)
    ensures |r| == 3
  {
    if m == 1 then "Jan" else if m == 2 then "Feb" else if m == 3 then "Mar"
    else if m == 4 then "Apr" else if m == 5 then "May" else if m == 6 then "Jun"
    else if m == 7 then "Jul" else if m == 8 then "Aug" else if m == 9 then "Sep"
    else if m == 10 then "Oct" else if m == 11 then "Nov" else "Dec"
  }

  function DigitChar(d: int): char
    requires 0 <= d < 10
  {
    ('0' as int + d) as char
  }

  predicate IsDigit(c: char) {
    '0' <= c <= '9'
  }

  function DigitValue(c: char): (r: int)
    requires IsDigit(c)
    ensures 0 <= r < 10 && DigitChar(r) == c
  {
    c as int - '0' as int
  }

  /** Decimal rendering of a year, without leading zeros. */
  function NatToString(n: nat): (r: string)
    ensures |r| >= 1
    ensures n >= 10 ==> |r| >= 2
    ensures forall i :: 0 <= i < |r| ==> IsDigit(r[i])
    decreases n
  {
    if n < 10 then [DigitChar(n)] else NatToString(n / 10) + [DigitChar(n % 10)]
  }

  /** The label the dashboard shows for a month bucket. */
  function Label(k: MonthKey): string {
    match k
    case InvalidDate => "Invalid Date"
    case YearMonth(y, m) => Abbrev(m) + " " + NatToString(y)
  }

  /** Strict chronological order of months; the bucket of unparseable dates comes last,
      as its key "NaN-NaN" sorts after every "YYYY-MM" key. */
  predicate Before(j: MonthKey, k: MonthKey) {
    match (j, k)
    case (YearMonth(y1, m1), YearMonth(y2, m2)) => y1 < y2 || (y1 == y2 && m1 < m2)
    case (YearMonth(_, _), InvalidDate) => true
    case (InvalidDate, _) => false
  }

  /** Reads the month from the first seven characters "YYYY-MM" of a date. For a
      well-formed ISO "YYYY-MM-DD" date this is what the browser's `Date` yields when
      the local time zone is UTC; the day and anything after it are not checked, so a
      malformed tail that `Date` rejects still gets a month here. */
  function IsoMonth(date: string): (k: MonthKey)
    ensures k.YearMonth? ==> |date| >= 7 && date[4] == '-'
  {
    if |date| >= 7 && IsDigit(date[0]) && IsDigit(date[1]) && IsDigit(date[2]) && IsDigit(date[3])
       && date[4] == '-' && IsDigit(date[5]) && IsDigit(date[6])
    then
      var y := 1000 * DigitValue(date[0]) + 100 * DigitValue(date[1]) + 10 * DigitValue(date[2]) + DigitValue(date[3]);
      var m := 10 * DigitValue(date[5]) + DigitValue(date[6]);
      if 1 <= m <= 12 then YearMonth(y, m) else InvalidDate
    else InvalidDate
  }

  /** Distinct years are written differently. */
  lemma {:induction false} NatToStringInjective(a: nat, b: nat)
    requires NatToString(a) == NatToString(b)
    ensures a == b
    decreases a
  {
    if a >= 10 && b >= 10 {
      var sa, sb := NatToString(a), NatToString(b);
      assert sa[|sa| - 1] == DigitChar(a % 10) && sb[|sb| - 1] == DigitChar(b % 10);
      assert sa[..|sa| - 1] == NatToString(a / 10);
      assert sb[..|sb| - 1] == NatToString(b / 10);
      NatToStringInjective(a / 10, b / 10);
    }
  }

  lemma AbbrevInjective(m1: MonthNumber, m2: MonthNumber)
    requires Abbrev(m1) == Abbrev(m2)
    ensures m1 == m2
  {
  }

  /** No month's label reads "Invalid Date". */
  lemma MonthLabelIsValid(y: nat, m: MonthNumber)
    ensures Label(YearMonth(y, m)) != Label(InvalidDate)
  {
    assert Label(YearMonth(y, m))[..3] == Abbrev(m);
    assert Label(InvalidDate)[..3] == "Inv";
  }

  /** Distinct months get distinct labels, so sorting buckets by label never ties. */
  lemma LabelInjective(j: MonthKey, k: MonthKey)
    requires Label(j) == Label(k)
    ensures j == k
  {
    var lj, lk := Label(j), Label(k);
    match (j, k)
    case (YearMonth(y1, m1), YearMonth(y2, m2)) =>
      assert lj[..3] == Abbrev(m1) && lk[..3] == Abbrev(m2);
      AbbrevInjective(m1, m2);
      assert lj[4..] == NatToString(y1) && lk[4..] == NatToString(y2);
      NatToStringInjective(y1, y2);
    case (YearMonth(y1, m1), InvalidDate) =>
      MonthLabelIsValid(y1, m1);
    case (InvalidDate, YearMonth(y2, m2)) =>
      MonthLabelIsValid(y2, m2);
    case (InvalidDate, InvalidDate) =>
  }

  /** Chronological order is a strict total order. */
  lemma BeforeStrictTotal(j: MonthKey, k: MonthKey, l: MonthKey)
    ensures !Before(j, j)
    ensures Before(j, k) || j == k || Before(k, j)
    ensures Before(j, k) && Before(k, l) ==> Before(j, l)
  {
  }
}

=== FILE: dashboard.dfy ===
/** The dashboard's own logic around the report: the headline month, the profit
    margin, and the local list update after adding a transaction. */
module Dashboard {
  import opened Wrappers
  import opened Sales
  import opened Http
  import opened Calendar
  import opened LexOrder
  import opened MonthlySummary
  import opened SalesRoute

  /** The headline month: the last row of the report, or an all-zero row labelled
      "Current" when there are no rows. */
  function CurrentMonth(rows: seq<Summary>): (r: Summary)
    ensures |rows| > 0 ==> r == rows[|rows| - 1]
    ensures |rows| == 0 ==>
      && r.month == "Current"
      && r.onlineRevenue == 0.0 && r.cashRevenue == 0.0 && r.totalRevenue == 0.0
      && r.expenses == 0.0 && r.profit == 0.0
  {
    if |rows| > 0 then rows[|rows| - 1] else Zero("Current")
  }

  /** The profit margin in percent, taken only when there is revenue. */
  function ProfitMargin(s: Summary): (r: real)
    ensures s.totalRevenue <= 0.0 ==> r == 0.0
    ensures s.totalRevenue > 0.0 ==> r * s.totalRevenue == s.profit * 100.0
  {
    if s.totalRevenue > 0.0 then s.profit / s.totalRevenue * 100.0 else 0.0
  }

  /** The transaction the form hands over. */
  datatype NewTransaction = NewTransaction(date: string, kind: string, amount: real, description: string)

  /** How the request to the sales API ended: `FetchFailed` when the request failed or
      its reply was not JSON (either throws inside the same `try` and leaves the list
      alone), otherwise the parsed response. */
  datatype Reply = FetchFailed | Received(response: Response)

  /** The body `handleAddTransaction` posts: the transaction's fields and the
      signed-in user's name as `addedBy`. */
  function RequestBody(t: NewTransaction, userName: string): (b: SaleInput)
    ensures b.addedBy == userName
    ensures b.date == t.date && b.kind == t.kind && b.amount == t.amount && b.description == t.description
  {
    SaleInput(t.date, t.kind, t.amount, t.description, userName)
  }

  /** The local list update as `handleAddTransaction` performs it: whatever came
      back, its `sale` field is appended, so a reply without one (the API's 500)
      appends `undefined`, written None here.  Only a failed request leaves the
      list alone. */
  function AppendReplyAsWritten(list: seq<Option<Sale>>, reply: Reply): (r: seq<Option<Sale>>)
    ensures reply.FetchFailed? ==> r == list
    ensures reply.Received? ==>
      && |r| == |list| + 1
      && r[..|list|] == list
      && (r[|list|].Some? <==> reply.response.body.SaleCreated?)
      && (reply.response.body.SaleCreated? ==> r[|list|] == Some(reply.response.body.sale))
  {
    match reply
    case FetchFailed => list
    case Received(response) =>
      list + [if response.body.SaleCreated? then Some(response.body.sale) else None]
  }

  /** The local list update with the status checked: only a created sale is appended. */
  function AppendReply(list: seq<Sale>, reply: Reply): (r: seq<Sale>)
    ensures reply.Received? && reply.response.status == 201 && reply.response.body.SaleCreated? ==>
      r == list + [reply.response.body.sale]
    ensures !(reply.Received? && reply.response.status == 201 && reply.response.body.SaleCreated?) ==>
      r == list
  {
    match reply
    case Received(Response(201, SaleCreated(sale))) => list + [sale]
    case _ => list
  }

  // ---------------------------------------------------------------------------
  // The headline month.
  // ---------------------------------------------------------------------------

  /** No month label reads "Current". */
  lemma LabelIsNotCurrent(k: MonthKey)
    ensures Label(k) != "Current"
  {
    match k
    case InvalidDate =>
    case YearMonth(y, m) =>
      assert Label(k)[0] == Abbrev(m)[0];
  }

  /** In rows strictly ordered by label, the last row has the greatest label. */
  lemma LastRowHasGreatestLabel(rows: seq<Summary>)
    requires |rows| > 0
    requires forall i, j :: 0 <= i < j < |rows| ==> Less(rows[i].month, rows[j].month)
    ensures forall s :: s in rows ==> s == CurrentMonth(rows) || Less(s.month, CurrentMonth(rows).month)
  {
    forall s | s in rows ensures s == CurrentMonth(rows) || Less(s.month, CurrentMonth(rows).month) {
      var i :| 0 <= i < |rows| && rows[i] == s;
      if i < |rows| - 1 {
        assert Less(rows[i].month, rows[|rows| - 1].month);
      }
    }
  }

  /** The headline month is the row whose label sorts last as text. */
  lemma CurrentMonthHasGreatestLabel(txs: seq<Sale>, monthOf: string -> MonthKey)
    requires |txs| > 0
    ensures var rows := Summarize(txs, monthOf);
      && CurrentMonth(rows) in rows
      && forall s :: s in rows ==> s == CurrentMonth(rows) || Less(s.month, CurrentMonth(rows).month)
  {
    var rows := Summarize(txs, monthOf);
    assert monthOf(txs[0].date) in MonthsOf(txs, monthOf);
    assert |rows| > 0;
    LastRowHasGreatestLabel(rows);
  }

  /** The all-zero "Current" row is shown exactly when there are no transactions. */
  lemma CurrentMonthFallback(txs: seq<Sale>, monthOf: string -> MonthKey)
    ensures CurrentMonth(Summarize(txs, monthOf)).month == "Current" <==> |txs| == 0
    ensures |txs| == 0 ==> CurrentMonth(Summarize(txs, monthOf)) == Zero("Current")
  {
    var rows := Summarize(txs, monthOf);
    if |txs| == 0 {
      assert MonthsOf(txs, monthOf) == {};
    } else {
      assert monthOf(txs[0].date) in MonthsOf(txs, monthOf);
      var last := rows[|rows| - 1];
      var k :| k in MonthsOf(txs, monthOf) && last == Expected(txs, monthOf, k);
      LabelIsNotCurrent(k);
    }
  }

  /** A transaction in September 2023 followed by one in January 2024. */
  function SeptemberThenJanuaryExample(): seq<Sale> {
    [ Sale("a", "2023-09-14", OnlineRevenue, 10.0, "", "Manager", 1),
      Sale("b", "2024-01-03", OnlineRevenue, 20.0, "", "Manager", 2) ]
  }

  lemma SeptemberThenJanuaryMonths()
    ensures MonthsOf(SeptemberThenJanuaryExample(), IsoMonth) == {YearMonth(2023, 9), YearMonth(2024, 1)}
  {
    assert IsoMonth("2023-09-14") == YearMonth(2023, 9);
    assert IsoMonth("2024-01-03") == YearMonth(2024, 1);
  }

  lemma SeptemberThenJanuaryLabels()
    ensures Label(YearMonth(2023, 9)) == "Sep 2023" && Label(YearMonth(2024, 1)) == "Jan 2024"
    ensures Less("Jan 2024", "Sep 2023")
  {
  }

  /** With one transaction in September 2023 and one in January 2024, the headline
      month is September 2023, although January 2024 is later. */
  lemma CurrentMonthNotLatest()
    ensures CurrentMonth(Summarize(SeptemberThenJanuaryExample(), IsoMonth)).month == "Sep 2023"
    ensures YearMonth(2024, 1) in MonthsOf(SeptemberThenJanuaryExample(), IsoMonth)
    ensures Before(YearMonth(2023, 9), YearMonth(2024, 1))
  {
    SeptemberThenJanuaryMonths();
    SeptemberThenJanuaryLabels();
    HeadlineOfTwoMonths(SeptemberThenJanuaryExample(), IsoMonth, YearMonth(2024, 1), YearMonth(2023, 9));
  }

  /** With exactly two months present, the headline is the one whose label sorts last. */
  lemma HeadlineOfTwoMonths(txs: seq<Sale>, monthOf: string -> MonthKey, a: MonthKey, b: MonthKey)
    requires MonthsOf(txs, monthOf) == {a, b}
    requires Less(Label(a), Label(b))
    ensures CurrentMonth(Summarize(txs, monthOf)).month == Label(b)
  {
    var rows := Summarize(txs, monthOf);
    LessIrreflexive(Label(a));
    assert |{a, b}| == 2;
    TwoRowsInLabelOrder(rows, Expected(txs, monthOf, a), Expected(txs, monthOf, b));
  }

  /** With the rows in calendar order, the headline month is the latest month. */
  lemma CurrentMonthIsLatest(txs: seq<Sale>, monthOf: string -> MonthKey, k: MonthKey)
    requires k in MonthsOf(txs, monthOf)
    requires forall j :: j in MonthsOf(txs, monthOf) ==> j == k || Before(j, k)
    ensures CurrentMonth(SummarizeChronological(txs, monthOf)) == Expected(txs, monthOf, k)
  {
    ChronologicalEndsWithLatest(txs, monthOf, k);
  }

  // ---------------------------------------------------------------------------
  // The margin.
  // ---------------------------------------------------------------------------

  /** For a balanced row with revenue, the margin is at most 100 when expenses are
      not negative, and not negative exactly when expenses do not exceed revenue. */
  lemma MarginBounds(s: Summary)
    requires Balanced(s) && s.totalRevenue > 0.0
    ensures s.expenses >= 0.0 ==> ProfitMargin(s) <= 100.0
    ensures ProfitMargin(s) >= 0.0 <==> s.expenses <= s.totalRevenue
  {
    var r, t := ProfitMargin(s), s.totalRevenue;
    assert r * t == (t - s.expenses) * 100.0;
    if r > 100.0 {
      assert (r - 100.0) * t > 0.0;
    }
    if r < 0.0 {
      assert r * t < 0.0;
    } else {
      assert r * t >= 0.0;
    }
  }

  // ---------------------------------------------------------------------------
  // Adding a transaction, end to end.
  // ---------------------------------------------------------------------------

  /** When the API cannot save, the list update as written appends `undefined`. */
  lemma FailedSaveAppendsUndefined(list: seq<Option<Sale>>, d: Disk, t: NewTransaction, userName: string, id: string, now: int)
    requires id !in StoredIds(d)
    requires !CanSave(d, Some(RequestBody(t, userName)))
    ensures var r := AppendReplyAsWritten(list, Received(Post(d, Some(RequestBody(t, userName)), id, now).1));
      |r| == |list| + 1 && r[|list|] == None
  {
  }

  /** With the corrected update `AppendReply`: if the local list was a multiset copy of
      the stored transactions, it still is after adding one, whether or not the save
      succeeded; a saved record carries the user's name. */
  lemma ClientMirrorsStore(list: seq<Sale>, d: Disk, t: NewTransaction, userName: string, id: string, now: int)
    requires id !in StoredIds(d)
    requires StoredSales(d).Some? && multiset(list) == multiset(StoredSales(d).value)
    ensures var (d', response) := Post(d, Some(RequestBody(t, userName)), id, now);
      && StoredSales(d').Some?
      && multiset(AppendReply(list, Received(response))) == multiset(StoredSales(d').value)
      && (response.status == 201 ==> response.body.sale.addedBy == userName)
  {
  }
}

=== FILE: http.dfy ===
/** JSON responses of the two API routes, reduced to a status code and a payload. */
module Http {
  import opened Sales

  datatype Body =
    | SalesList(sales: seq<Sale>)      // {sales: [...]}
    | SaleCreated(sale: Sale)          // {sale: {...}}
    | Authenticated(name: string)      // {success: true, name}
    | Message(text: string)            // {message}

  datatype Response = Response(status: int, body: Body)
}

=== FILE: lex_order.dfy ===
/** Lexicographic order on strings, character by character.

    The dashboard orders its month labels with `localeCompare`.  For the labels it
    produces ("Jan 2024", "Invalid Date": an upper-case initial, lower-case
    letters, a space and decimal digits) collation order agrees with plain
    character order, which is what this module defines. */
module LexOrder {

  /** `a` sorts strictly before `b`. */
  predicate Less(a: string, b: string)
    decreases |a|
  {
    if |a| == 0 then |b| > 0
    else |b| > 0 && (a[0] < b[0] || (a[0] == b[0] && Less(a[1..], b[1..])))
  }

  /** `a` sorts before `b` or equals it. */
  predicate LessOrEqual(a: string, b: string) {
    a == b || Less(a, b)
  }

  lemma {:induction false} LessIrreflexive(a: string)
    ensures !Less(a, a)
  {
    if |a| > 0 {
      LessIrreflexive(a[1..]);
    }
  }

  lemma {:induction false} LessTransitive(a: string, b: string, c: string)
    requires Less(a, b) && Less(b, c)
    ensures Less(a, c)
  {
    if |a| > 0 && a[0] == b[0] && b[0] == c[0] {
      LessTransitive(a[1..], b[1..], c[1..]);
    }
  }

  lemma LessAsymmetric(a: string, b: string)
    requires Less(a, b)
    ensures !Less(b, a)
  {
    if Less(b, a) {
      LessTransitive(a, b, a);
      LessIrreflexive(a);
    }
  }

  lemma {:induction false} LessTrichotomous(a: string, b: string)
    ensures Less(a, b) || a == b || Less(b, a)
  {
    if |a| > 0 && |b| > 0 && a[0] == b[0] {
      LessTrichotomous(a[1..], b[1..]);
      if a[1..] == b[1..] {
        assert a == [a[0]] + a[1..];
        assert b == [b[0]] + b[1..];
      }
    }
  }
}

=== FILE: monthly_summary.dfy ===
/** The dashboard's monthly report: a single pass over the transactions that
    accumulates one summary per calendar month, then a sort of the summaries by
    their month label. */
module MonthlySummary {
  import opened Sales
  import opened Calendar
  import opened LexOrder
  import opened Sorting

  /** One row of the report.  `month` is the display label, not the bucket key. */
  datatype Summary = Summary(
    month: string,
    onlineRevenue: real,
    cashRevenue: real,
    totalRevenue: real,
    expenses: real,
    profit: real)

  /** A month bucket: the key "YYYY-MM" it is filed under, and its summary. */
  datatype Bucket = Bucket(key: MonthKey, summary: Summary)

  /** The derived fields agree with the accumulated ones. */
  predicate Balanced(s: Summary) {
    s.totalRevenue == s.onlineRevenue + s.cashRevenue && s.profit == s.totalRevenue - s.expenses
  }

  /** A freshly created bucket: every amount zero. */
  function Zero(month: string): Summary {
    Summary(month, 0.0, 0.0, 0.0, 0.0, 0.0)
  }

  /** Adds one transaction into its month's summary: its amount goes to the field
      its type selects (none for an unrecognised type), then the total and the
      profit are recomputed from the accumulated fields. */
  function AddSale(s: Summary, t: Sale): (r: Summary)
    ensures r.month == s.month && Balanced(r)
    ensures r.onlineRevenue == s.onlineRevenue + (if t.kind == OnlineRevenue then t.amount else 0.0)
    ensures r.cashRevenue == s.cashRevenue + (if t.kind == CashRevenue then t.amount else 0.0)
    ensures r.expenses == s.expenses + (if t.kind == Expense then t.amount else 0.0)
  {
    var s' :=
      if t.kind == OnlineRevenue then s.(onlineRevenue := s.onlineRevenue + t.amount)
      else if t.kind == CashRevenue then s.(cashRevenue := s.cashRevenue + t.amount)
      else if t.kind == Expense then s.(expenses := s.expenses + t.amount)
      else s;
    var total := s'.onlineRevenue + s'.cashRevenue;
    s'.(totalRevenue := total, profit := total - s'.expenses)
  }

  // ---------------------------------------------------------------------------
  // Reference definition: what each month's summary should hold.
  // ---------------------------------------------------------------------------

  /** The months present among the transactions' dates. */
  function MonthsOf(txs: seq<Sale>, monthOf: string -> MonthKey): set<MonthKey> {
    set t | t in txs :: monthOf(t.date)
  }

  /** What one transaction adds to the field `kind` of month `k`. */
  function Contribution(t: Sale, monthOf: string -> MonthKey, k: MonthKey, kind: string): real {
    if monthOf(t.date) == k && t.kind == kind then t.amount else 0.0
  }

  /** Sum of the amounts of the transactions of type `kind` dated in month `k`. */
  function KindTotal(txs: seq<Sale>, monthOf: string -> MonthKey, k: MonthKey, kind: string): real
    decreases |txs|
  {
    if |txs| == 0 then 0.0
    else KindTotal(txs[..|txs| - 1], monthOf, k, kind) + Contribution(txs[|txs| - 1], monthOf, k, kind)
  }

  /** The summary month `k` should have: per-type sums and the derived fields. */
  function Expected(txs: seq<Sale>, monthOf: string -> MonthKey, k: MonthKey): Summary {
    var online := KindTotal(txs, monthOf, k, OnlineRevenue);
    var cash := KindTotal(txs, monthOf, k, CashRevenue);
    var expenses := KindTotal(txs, monthOf, k, Expense);
    Summary(Label(k), online, cash, online + cash, expenses, online + cash - expenses)
  }

  // ---------------------------------------------------------------------------
  // The fold.
  // ---------------------------------------------------------------------------

  predicate DistinctKeys(bs: seq<Bucket>) {
    forall i, j :: 0 <= i < j < |bs| ==> bs[i].key != bs[j].key
  }

  predicate HasKey(bs: seq<Bucket>, k: MonthKey) {
    exists i :: 0 <= i < |bs| && bs[i].key == k
  }

  /** Position of the bucket filed under `k`, or -1 when there is none. */
  function IndexOf(bs: seq<Bucket>, k: MonthKey): (i: int)
    ensures -1 <= i < |bs|
    ensures 0 <= i ==> bs[i].key == k
    ensures i < 0 ==> !HasKey(bs, k)
    decreases |bs|
  {
    if |bs| == 0 then -1
    else if bs[|bs| - 1].key == k then |bs| - 1
    else IndexOf(bs[..|bs| - 1], k)
  }

  /** One iteration of the fold: find or create the transaction's bucket, then add to it. */
  function Step(bs: seq<Bucket>, t: Sale, monthOf: string -> MonthKey): seq<Bucket> {
    var k := monthOf(t.date);
    var i := IndexOf(bs, k);
    if i < 0 then bs + [Bucket(k, AddSale(Zero(Label(k)), t))]
    else bs[i := Bucket(k, AddSale(bs[i].summary, t))]
  }

  /** One iteration of the loop body touches only the transaction's own month: an
      existing bucket for it gets the transaction added, otherwise a zero bucket with
      the transaction added is appended; every other bucket keeps its place and contents. */
  lemma StepChangesOnlyItsMonth(bs: seq<Bucket>, t: Sale, monthOf: string -> MonthKey)
    requires DistinctKeys(bs)
    ensures var k, r := monthOf(t.date), Step(bs, t, monthOf);
      && |r| == (if HasKey(bs, k) then |bs| else |bs| + 1)
      && (forall i :: 0 <= i < |bs| ==> r[i].key == bs[i].key && (bs[i].key != k ==> r[i] == bs[i]))
      && (forall i :: 0 <= i < |bs| && bs[i].key == k ==> r[i].summary == AddSale(bs[i].summary, t))
      && (!HasKey(bs, k) ==> r[|bs|] == Bucket(k, AddSale(Zero(Label(k)), t)))
  {
  }

  /** `bs` holds exactly one bucket per month present in `txs`, and each bucket
      holds that month's sums. */
  predicate Represents(bs: seq<Bucket>, txs: seq<Sale>, monthOf: string -> MonthKey) {
    && DistinctKeys(bs)
    && (forall i :: 0 <= i < |bs| ==>
          bs[i].key in MonthsOf(txs, monthOf) && bs[i].summary == Expected(txs, monthOf, bs[i].key))
    && (forall k :: k in MonthsOf(txs, monthOf) ==> HasKey(bs, k))
  }

  /** The buckets after folding the transactions in order, in order of first
      appearance: exactly one per month present, each holding that month's sums. */
  function Buckets(txs: seq<Sale>, monthOf: string -> MonthKey): (bs: seq<Bucket>)
    ensures Represents(bs, txs, monthOf)
    decreases |txs|
  {
    if |txs| == 0 then []
    else
      var bs := Buckets(txs[..|txs| - 1], monthOf);
      StepPreserves(bs, txs, monthOf);
      Step(bs, txs[|txs| - 1], monthOf)
  }

  /** Folding in the last transaction turns buckets for the earlier ones into
      buckets for all of them. */
  lemma StepPreserves(bs: seq<Bucket>, txs: seq<Sale>, monthOf: string -> MonthKey)
    requires |txs| > 0
    requires Represents(bs, txs[..|txs| - 1], monthOf)
    ensures Represents(Step(bs, txs[|txs| - 1], monthOf), txs, monthOf)
  {
    var t := txs[|txs| - 1];
    ExpectedStep(txs, monthOf);
    if IndexOf(bs, monthOf(t.date)) < 0 {
      StepNewMonth(bs, txs, monthOf);
    } else {
      StepKnownMonth(bs, txs, monthOf);
    }
  }

  /** The last transaction opens a new bucket at the end. */
  lemma StepNewMonth(bs: seq<Bucket>, txs: seq<Sale>, monthOf: string -> MonthKey)
    requires |txs| > 0
    requires Represents(bs, txs[..|txs| - 1], monthOf)
    requires IndexOf(bs, monthOf(txs[|txs| - 1].date)) < 0
    requires LastStep(txs, monthOf)
    ensures Represents(Step(bs, txs[|txs| - 1], monthOf), txs, monthOf)
  {
    var p, t := txs[..|txs| - 1], txs[|txs| - 1];
    var k := monthOf(t.date);
    var bs' := bs + [Bucket(k, AddSale(Zero(Label(k)), t))];
    assert Step(bs, t, monthOf) == bs';
    assert k !in MonthsOf(p, monthOf);
    forall j | 0 <= j < |bs'|
      ensures bs'[j].key in MonthsOf(txs, monthOf) && bs'[j].summary == Expected(txs, monthOf, bs'[j].key)
    {
      if j < |bs| {
        assert bs'[j] == bs[j];
        assert bs[j].key != k;
      }
    }
    forall m | m in MonthsOf(txs, monthOf) ensures HasKey(bs', m) {
      if m == k {
        assert bs'[|bs|].key == k;
      } else {
        var j :| 0 <= j < |bs| && bs[j].key == m;
        assert bs'[j].key == m;
      }
    }
  }

  /** The last transaction adds into the bucket already filed under its month. */
  lemma StepKnownMonth(bs: seq<Bucket>, txs: seq<Sale>, monthOf: string -> MonthKey)
    requires |txs| > 0
    requires Represents(bs, txs[..|txs| - 1], monthOf)
    requires IndexOf(bs, monthOf(txs[|txs| - 1].date)) >= 0
    requires LastStep(txs, monthOf)
    ensures Represents(Step(bs, txs[|txs| - 1], monthOf), txs, monthOf)
  {
    var p, t := txs[..|txs| - 1], txs[|txs| - 1];
    var k := monthOf(t.date);
    var i := IndexOf(bs, k);
    var bs' := bs[i := Bucket(k, AddSale(bs[i].summary, t))];
    assert Step(bs, t, monthOf) == bs';
    forall j | 0 <= j < |bs'|
      ensures bs'[j].key in MonthsOf(txs, monthOf) && bs'[j].summary == Expected(txs, monthOf, bs'[j].key)
    {
      if j != i {
        assert bs'[j] == bs[j];
        assert bs[j].key != k;
      }
    }
    forall m | m in MonthsOf(txs, monthOf) ensures HasKey(bs', m) {
      if m == k {
        assert bs'[i].key == m;
      } else {
        var j :| 0 <= j < |bs| && bs[j].key == m;
        assert bs'[j].key == m;
      }
    }
  }

  /** A month with no transaction sums to zero. */
  lemma {:induction false} KindTotalOfAbsentMonth(txs: seq<Sale>, monthOf: string -> MonthKey, k: MonthKey, kind: string)
    requires k !in MonthsOf(txs, monthOf)
    ensures KindTotal(txs, monthOf, k, kind) == 0.0
    decreases |txs|
  {
    if |txs| > 0 {
      var p := txs[..|txs| - 1];
      assert MonthsOf(p, monthOf) <= MonthsOf(txs, monthOf) by {
        forall m | m in MonthsOf(p, monthOf) ensures m in MonthsOf(txs, monthOf) {
          var t :| t in p && monthOf(t.date) == m;
          assert t in txs;
        }
      }
      assert txs[|txs| - 1] in txs;
      KindTotalOfAbsentMonth(p, monthOf, k, kind);
    }
  }

  /** How the reference summaries of `txs` relate to those of `txs` without its
      last transaction `t`: only `t`'s month changes, by `AddSale`, starting from
      zero when the month is new. */
  ghost predicate LastStep(txs: seq<Sale>, monthOf: string -> MonthKey)
    requires |txs| > 0
  {
    var p, t := txs[..|txs| - 1], txs[|txs| - 1];
    && MonthsOf(txs, monthOf) == MonthsOf(p, monthOf) + {monthOf(t.date)}
    && (forall k :: k != monthOf(t.date) ==> Expected(txs, monthOf, k) == Expected(p, monthOf, k))
    && Expected(txs, monthOf, monthOf(t.date)) == AddSale(Expected(p, monthOf, monthOf(t.date)), t)
    && (monthOf(t.date) !in MonthsOf(p, monthOf) ==>
          Expected(p, monthOf, monthOf(t.date)) == Zero(Label(monthOf(t.date))))
  }

  /** How the reference summaries change when one more transaction is folded in. */
  lemma ExpectedStep(txs: seq<Sale>, monthOf: string -> MonthKey)
    requires |txs| > 0
    ensures LastStep(txs, monthOf)
  {
    var p, t := txs[..|txs| - 1], txs[|txs| - 1];
    assert txs == p + [t];
    var k := monthOf(t.date);
    if k !in MonthsOf(p, monthOf) {
      KindTotalOfAbsentMonth(p, monthOf, k, OnlineRevenue);
      KindTotalOfAbsentMonth(p, monthOf, k, CashRevenue);
      KindTotalOfAbsentMonth(p, monthOf, k, Expense);
    }
  }

  // ---------------------------------------------------------------------------
  // Ordering the buckets.
  // ---------------------------------------------------------------------------

  /** The months the buckets are filed under. */
  function Keys(bs: seq<Bucket>): set<MonthKey> {
    set b | b in bs :: b.key
  }

  lemma {:induction false} DistinctKeysCount(bs: seq<Bucket>)
    requires DistinctKeys(bs)
    ensures |Keys(bs)| == |bs|
    decreases |bs|
  {
    if |bs| > 0 {
      var p, last := bs[..|bs| - 1], bs[|bs| - 1];
      assert bs == p + [last];
      assert Keys(bs) == Keys(p) + {last.key};
      assert last.key !in Keys(p);
      DistinctKeysCount(p);
    }
  }

  /** Any reordering of the buckets still represents the transactions, and there
      are as many buckets as months. */
  lemma ReorderedBuckets(bs: seq<Bucket>, r: seq<Bucket>, txs: seq<Sale>, monthOf: string -> MonthKey)
    requires Represents(bs, txs, monthOf)
    requires multiset(r) == multiset(bs)
    ensures Represents(r, txs, monthOf)
    ensures |r| == |MonthsOf(txs, monthOf)|
  {
    assert Distinct(bs);
    PermutationKeepsDistinct(bs, r);
    forall i | 0 <= i < |r|
      ensures r[i].key in MonthsOf(txs, monthOf) && r[i].summary == Expected(txs, monthOf, r[i].key)
    {
      assert r[i] in multiset(bs);
    }
    forall i, j | 0 <= i < j < |r| ensures r[i].key != r[j].key {
      assert r[i] != r[j];
    }
    forall k | k in MonthsOf(txs, monthOf) ensures HasKey(r, k) {
      var j :| 0 <= j < |bs| && bs[j].key == k;
      assert bs[j] in multiset(r);
    }
    DistinctKeysCount(r);
    assert Keys(r) == MonthsOf(txs, monthOf) by {
      forall k | k in MonthsOf(txs, monthOf) ensures k in Keys(r) {
        var j :| 0 <= j < |r| && r[j].key == k;
        assert r[j] in r;
      }
    }
    assert |r| == |multiset(r)| == |multiset(bs)| == |bs|;
  }

  /** A bucket's label is the label of its month. */
  lemma RepresentedLabel(bs: seq<Bucket>, txs: seq<Sale>, monthOf: string -> MonthKey, i: int)
    requires Represents(bs, txs, monthOf)
    requires 0 <= i < |bs|
    ensures bs[i].summary.month == Label(bs[i].key)
  {
  }

  /** The order `calculateMonthlySummary` sorts by: the month labels, as text. */
  predicate LabelOrder(a: Bucket, b: Bucket) {
    LessOrEqual(a.summary.month, b.summary.month)
  }

  lemma LabelOrderIsTotalPreorder()
    ensures Total(LabelOrder)
    ensures Transitive(LabelOrder)
  {
    forall a: Bucket, b: Bucket ensures LabelOrder(a, b) || LabelOrder(b, a) {
      LessTrichotomous(a.summary.month, b.summary.month);
    }
    forall a: Bucket, b: Bucket, c: Bucket | LabelOrder(a, b) && LabelOrder(b, c)
      ensures LabelOrder(a, c)
    {
      if a.summary.month != b.summary.month && b.summary.month != c.summary.month {
        LessTransitive(a.summary.month, b.summary.month, c.summary.month);
      }
    }
  }

  /** The buckets sorted by label.  Labels of distinct months differ, so the order is strict. */
  function SortedByLabel(txs: seq<Sale>, monthOf: string -> MonthKey): (r: seq<Bucket>)
    ensures Represents(r, txs, monthOf)
    ensures |r| == |MonthsOf(txs, monthOf)|
    ensures forall i, j :: 0 <= i < j < |r| ==> Less(r[i].summary.month, r[j].summary.month)
  {
    LabelOrderIsTotalPreorder();
    var bs := Buckets(txs, monthOf);
    var r := SortBy(bs, LabelOrder);
    ReorderedBuckets(bs, r, txs, monthOf);
    SortedPairwise(r, LabelOrder);
    LabelsStrictlyIncrease(r, txs, monthOf);
    r
  }

  lemma LabelsStrictlyIncrease(r: seq<Bucket>, txs: seq<Sale>, monthOf: string -> MonthKey)
    requires Represents(r, txs, monthOf)
    requires forall i, j :: 0 <= i < j < |r| ==> LabelOrder(r[i], r[j])
    ensures forall i, j :: 0 <= i < j < |r| ==> Less(r[i].summary.month, r[j].summary.month)
  {
    forall i, j | 0 <= i < j < |r| ensures Less(r[i].summary.month, r[j].summary.month) {
      RepresentedLabel(r, txs, monthOf, i);
      RepresentedLabel(r, txs, monthOf, j);
      if r[i].summary.month == r[j].summary.month {
        LabelInjective(r[i].key, r[j].key);
        assert false;
      }
    }
  }

  /** The rows of a list of buckets. */
  function Rows(bs: seq<Bucket>): seq<Summary> {
    seq(|bs|, i requires 0 <= i < |bs| => bs[i].summary)
  }

  /** The report `calculateMonthlySummary` stores: one row per month present among
      the transactions' dates, holding that month's per-type sums with the derived
      total and profit, ordered by label text rather than by date. */
  function Summarize(txs: seq<Sale>, monthOf: string -> MonthKey): (r: seq<Summary>)
    ensures |r| == |MonthsOf(txs, monthOf)|
    ensures forall k :: k in MonthsOf(txs, monthOf) ==> Expected(txs, monthOf, k) in r
    ensures forall i :: 0 <= i < |r| ==>
      exists k :: k in MonthsOf(txs, monthOf) && r[i] == Expected(txs, monthOf, k)
    ensures forall i :: 0 <= i < |r| ==> Balanced(r[i])
    ensures forall i, j :: 0 <= i < j < |r| ==> Less(r[i].month, r[j].month)
  {
    var bs := SortedByLabel(txs, monthOf);
    RowsOfRepresentation(bs, txs, monthOf);
    RowsKeepLabelOrder(bs);
    Rows(bs)
  }

  /** Taking the rows of buckets strictly ordered by label keeps the order. */
  lemma RowsKeepLabelOrder(bs: seq<Bucket>)
    requires forall i, j :: 0 <= i < j < |bs| ==> Less(bs[i].summary.month, bs[j].summary.month)
    ensures forall i, j :: 0 <= i < j < |Rows(bs)| ==> Less(Rows(bs)[i].month, Rows(bs)[j].month)
  {
    assert forall i :: 0 <= i < |bs| ==> Rows(bs)[i] == bs[i].summary;
  }

  /** The rows of buckets that represent the transactions are those months' reference summaries. */
  lemma RowsOfRepresentation(bs: seq<Bucket>, txs: seq<Sale>, monthOf: string -> MonthKey)
    requires Represents(bs, txs, monthOf)
    ensures var r := Rows(bs);
      && |r| == |bs|
      && (forall k :: k in MonthsOf(txs, monthOf) ==> Expected(txs, monthOf, k) in r)
      && (forall i :: 0 <= i < |r| ==>
            exists k :: k in MonthsOf(txs, monthOf) && r[i] == Expected(txs, monthOf, k))
      && (forall i :: 0 <= i < |r| ==> Balanced(r[i]))
  {
    var r := Rows(bs);
    forall k | k in MonthsOf(txs, monthOf) ensures Expected(txs, monthOf, k) in r {
      var j :| 0 <= j < |bs| && bs[j].key == k;
      assert r[j] == Expected(txs, monthOf, k);
    }
    forall i | 0 <= i < |r|
      ensures exists k :: k in MonthsOf(txs, monthOf) && r[i] == Expected(txs, monthOf, k)
    {
      assert bs[i].key in MonthsOf(txs, monthOf) && r[i] == Expected(txs, monthOf, bs[i].key);
    }
    forall i | 0 <= i < |r| ensures Balanced(r[i]) {
      assert r[i] == Expected(txs, monthOf, bs[i].key);
    }
    assert |r| == |bs|;
  }

  // ---------------------------------------------------------------------------
  // The report in calendar order, as the zero-padded month key intends.
  // ---------------------------------------------------------------------------

  /** Chronological order of buckets, by month key. */
  predicate KeyOrder(a: Bucket, b: Bucket) {
    !Before(b.key, a.key)
  }

  lemma KeyOrderIsTotalPreorder()
    ensures Total(KeyOrder)
    ensures Transitive(KeyOrder)
  {
    forall a: Bucket, b: Bucket ensures KeyOrder(a, b) || KeyOrder(b, a) {
      BeforeStrictTotal(a.key, b.key, a.key);
    }
    forall a: Bucket, b: Bucket, c: Bucket | KeyOrder(a, b) && KeyOrder(b, c)
      ensures KeyOrder(a, c)
    {
      BeforeStrictTotal(a.key, b.key, c.key);
      BeforeStrictTotal(c.key, a.key, b.key);
      BeforeStrictTotal(b.key, c.key, a.key);
    }
  }

  /** The buckets in strictly increasing month order, latest last. */
  function ChronologicalBuckets(txs: seq<Sale>, monthOf: string -> MonthKey): (r: seq<Bucket>)
    ensures Represents(r, txs, monthOf)
    ensures |r| == |MonthsOf(txs, monthOf)|
    ensures forall i, j :: 0 <= i < j < |r| ==> Before(r[i].key, r[j].key)
  {
    KeyOrderIsTotalPreorder();
    var bs := Buckets(txs, monthOf);
    var r := SortBy(bs, KeyOrder);
    ReorderedBuckets(bs, r, txs, monthOf);
    SortedPairwise(r, KeyOrder);
    assert forall i, j :: 0 <= i < j < |r| ==> Before(r[i].key, r[j].key) by {
      forall i, j | 0 <= i < j < |r| ensures Before(r[i].key, r[j].key) {
        BeforeStrictTotal(r[i].key, r[j].key, r[i].key);
      }
    }
    r
  }

  /** The report with rows in calendar order: the same rows as `Summarize`, sorted by month key. */
  function SummarizeChronological(txs: seq<Sale>, monthOf: string -> MonthKey): (r: seq<Summary>)
    ensures |r| == |Summarize(txs, monthOf)|
    ensures forall s :: s in r <==> s in Summarize(txs, monthOf)
  {
    var bs := ChronologicalBuckets(txs, monthOf);
    RowsOfRepresentation(bs, txs, monthOf);
    var r, l := Rows(bs), Summarize(txs, monthOf);
    assert forall s :: s in r <==> s in l by {
      forall s ensures s in r <==> s in l {
        if s in r {
          var i :| 0 <= i < |r| && r[i] == s;
          var k :| k in MonthsOf(txs, monthOf) && r[i] == Expected(txs, monthOf, k);
        }
        if s in l {
          var i :| 0 <= i < |l| && l[i] == s;
          var k :| k in MonthsOf(txs, monthOf) && l[i] == Expected(txs, monthOf, k);
        }
      }
    }
    r
  }

  /** In keys strictly increasing in calendar order, a key no other key follows is the last one. */
  lemma LatestKeyIsLast(bs: seq<Bucket>, j: int)
    requires forall a, b :: 0 <= a < b < |bs| ==> Before(bs[a].key, bs[b].key)
    requires 0 <= j < |bs|
    requires forall a :: 0 <= a < |bs| ==> bs[a].key == bs[j].key || Before(bs[a].key, bs[j].key)
    ensures j == |bs| - 1
  {
    if j < |bs| - 1 {
      var last := bs[|bs| - 1].key;
      BeforeStrictTotal(bs[j].key, last, bs[j].key);
      assert false;
    }
  }

  /** The rows are the summaries of the months `ks`, which increase strictly in calendar order. */
  ghost predicate SummariesOf(r: seq<Summary>, ks: seq<MonthKey>, txs: seq<Sale>, monthOf: string -> MonthKey) {
    && |ks| == |r|
    && (forall i :: 0 <= i < |r| ==> ks[i] in MonthsOf(txs, monthOf) && r[i] == Expected(txs, monthOf, ks[i]))
    && (forall i, j :: 0 <= i < j < |ks| ==> Before(ks[i], ks[j]))
  }

  /** The month keys of a list of buckets, in order. */
  function KeySeq(bs: seq<Bucket>): (ks: seq<MonthKey>)
    ensures |ks| == |bs| && forall i :: 0 <= i < |bs| ==> ks[i] == bs[i].key
  {
    seq(|bs|, i requires 0 <= i < |bs| => bs[i].key)
  }

  /** Rows of buckets sorted by month key are the summaries of their keys, in calendar order. */
  lemma RowsInKeyOrder(bs: seq<Bucket>, txs: seq<Sale>, monthOf: string -> MonthKey)
    requires Represents(bs, txs, monthOf)
    requires forall a, b :: 0 <= a < b < |bs| ==> Before(bs[a].key, bs[b].key)
    ensures SummariesOf(Rows(bs), KeySeq(bs), txs, monthOf)
  {
    var r, ks := Rows(bs), KeySeq(bs);
    assert |r| == |bs|;
    forall i | 0 <= i < |r| ensures ks[i] in MonthsOf(txs, monthOf) && r[i] == Expected(txs, monthOf, ks[i]) {
      assert r[i] == bs[i].summary;
    }
  }

  /** The corrected report lists the months' summaries in calendar order: of any two
      rows, the earlier one belongs to the earlier month. */
  lemma ChronologicalRowsInOrder(txs: seq<Sale>, monthOf: string -> MonthKey)
    ensures exists ks :: SummariesOf(SummarizeChronological(txs, monthOf), ks, txs, monthOf)
  {
    var bs := ChronologicalBuckets(txs, monthOf);
    RowsInKeyOrder(bs, txs, monthOf);
    assert SummarizeChronological(txs, monthOf) == Rows(bs);
  }

  /** The bucket of a month that no other month present follows is the last bucket. */
  lemma LatestBucketIsLast(bs: seq<Bucket>, txs: seq<Sale>, monthOf: string -> MonthKey, k: MonthKey)
    requires Represents(bs, txs, monthOf)
    requires forall a, b :: 0 <= a < b < |bs| ==> Before(bs[a].key, bs[b].key)
    requires k in MonthsOf(txs, monthOf)
    requires forall j :: j in MonthsOf(txs, monthOf) ==> j == k || Before(j, k)
    ensures |bs| > 0 && bs[|bs| - 1].summary == Expected(txs, monthOf, k)
  {
    assert HasKey(bs, k);
    var j :| 0 <= j < |bs| && bs[j].key == k;
    forall a | 0 <= a < |bs| ensures bs[a].key == k || Before(bs[a].key, k) {
      assert bs[a].key in MonthsOf(txs, monthOf);
    }
    LatestKeyIsLast(bs, j);
  }

  /** The last chronological row is the latest month's. */
  lemma ChronologicalEndsWithLatest(txs: seq<Sale>, monthOf: string -> MonthKey, k: MonthKey)
    requires k in MonthsOf(txs, monthOf)
    requires forall j :: j in MonthsOf(txs, monthOf) ==> j == k || Before(j, k)
    ensures var r := SummarizeChronological(txs, monthOf);
      |r| > 0 && r[|r| - 1] == Expected(txs, monthOf, k)
  {
    var bs := ChronologicalBuckets(txs, monthOf);
    LatestBucketIsLast(bs, txs, monthOf, k);
    assert SummarizeChronological(txs, monthOf) == Rows(bs);
  }

  // ---------------------------------------------------------------------------
  // Properties of the report.
  // ---------------------------------------------------------------------------

  /** A transaction of an unrecognised type opens its month's bucket but changes no amount. */
  lemma UnrecognisedTypeOnlyOpensMonth(txs: seq<Sale>, t: Sale, monthOf: string -> MonthKey)
    requires t.kind != OnlineRevenue && t.kind != CashRevenue && t.kind != Expense
    ensures MonthsOf(txs + [t], monthOf) == MonthsOf(txs, monthOf) + {monthOf(t.date)}
    ensures forall k :: k in MonthsOf(txs, monthOf) ==> Expected(txs + [t], monthOf, k) == Expected(txs, monthOf, k)
    ensures monthOf(t.date) !in MonthsOf(txs, monthOf) ==>
      Expected(txs + [t], monthOf, monthOf(t.date)) == Zero(Label(monthOf(t.date)))
  {
    var txs' := txs + [t];
    assert txs'[..|txs'| - 1] == txs;
    ExpectedStep(txs', monthOf);
  }

  lemma {:induction false} KindTotalAppend(u: seq<Sale>, v: seq<Sale>, monthOf: string -> MonthKey, k: MonthKey, kind: string)
    ensures KindTotal(u + v, monthOf, k, kind) == KindTotal(u, monthOf, k, kind) + KindTotal(v, monthOf, k, kind)
    decreases |v|
  {
    if |v| == 0 {
      assert u + v == u;
    } else {
      var v' := v[..|v| - 1];
      assert (u + v)[..|u + v| - 1] == u + v';
      assert (u + v)[|u + v| - 1] == v[|v| - 1];
      KindTotalAppend(u, v', monthOf, k, kind);
    }
  }

  /** Removing one occurrence of `x` from both sides of a multiset equation. */
  lemma RemoveOccurrence(a': seq<Sale>, x: Sale, b: seq<Sale>, i: int)
    requires 0 <= i < |b| && b[i] == x
    requires multiset(a' + [x]) == multiset(b)
    ensures multiset(a') == multiset(b[..i] + b[i + 1..])
  {
    var front, back := b[..i], b[i + 1..];
    assert b == front + [x] + back;
    calc {
      multiset(a');
      multiset(a' + [x]) - multiset{x};
      multiset(front + [x] + back) - multiset{x};
      multiset(front + back);
    }
  }

  /** A transaction in the middle contributes to the sum as if it came last. */
  lemma KindTotalSplice(front: seq<Sale>, x: Sale, back: seq<Sale>, monthOf: string -> MonthKey, k: MonthKey, kind: string)
    ensures KindTotal(front + [x] + back, monthOf, k, kind) ==
      KindTotal(front + back, monthOf, k, kind) + Contribution(x, monthOf, k, kind)
  {
    KindTotalAppend(front + [x], back, monthOf, k, kind);
    KindTotalAppend(front, [x], monthOf, k, kind);
    KindTotalAppend(front, back, monthOf, k, kind);
    assert [x][..0] == [];
  }

  /** Each per-type sum depends only on which transactions there are, not on their order. */
  lemma {:induction false} KindTotalPermutation(a: seq<Sale>, b: seq<Sale>, monthOf: string -> MonthKey, k: MonthKey, kind: string)
    requires multiset(a) == multiset(b)
    ensures KindTotal(a, monthOf, k, kind) == KindTotal(b, monthOf, k, kind)
    decreases |a|
  {
    if |a| == 0 {
      assert |b| == |multiset(b)| == 0;
    } else {
      var a', x := a[..|a| - 1], a[|a| - 1];
      assert a == a' + [x];
      assert x in multiset(b);
      var i :| 0 <= i < |b| && b[i] == x;
      var front, back := b[..i], b[i + 1..];
      assert b == front + [x] + back;
      RemoveOccurrence(a', x, b, i);
      KindTotalPermutation(a', front + back, monthOf, k, kind);
      KindTotalSplice(front, x, back, monthOf, k, kind);
    }
  }

  /** Two lists strictly ordered by label that hold the same rows are the same list. */
  lemma {:induction false} StrictlySortedUnique(x: seq<Summary>, y: seq<Summary>)
    requires forall i, j :: 0 <= i < j < |x| ==> Less(x[i].month, x[j].month)
    requires forall i, j :: 0 <= i < j < |y| ==> Less(y[i].month, y[j].month)
    requires forall s :: s in x <==> s in y
    ensures x == y
    decreases |x|
  {
    assert |x| > 0 ==> x[0] in y;
    assert |y| > 0 ==> y[0] in x;
    if |x| > 0 && |y| > 0 {
      assert x[0] in y && y[0] in x;
      var j :| 0 <= j < |y| && y[j] == x[0];
      var i :| 0 <= i < |x| && x[i] == y[0];
      if 0 < i && 0 < j {
        LessAsymmetric(x[0].month, y[0].month);
        assert false;
      }
      assert x[0] == y[0];
      forall s ensures s in x[1..] <==> s in y[1..] {
        if s in x[1..] {
          var a :| 0 <= a < |x| - 1 && x[1..][a] == s;
          assert x[a + 1] == s;
          LessIrreflexive(x[0].month);
          assert s != x[0] && s in x;
          var b :| 0 <= b < |y| && y[b] == s;
          assert b != 0;
          assert y[1..][b - 1] == s;
        }
        if s in y[1..] {
          var b :| 0 <= b < |y| - 1 && y[1..][b] == s;
          assert y[b + 1] == s;
          LessIrreflexive(y[0].month);
          assert s != y[0] && s in y;
          var a :| 0 <= a < |x| && x[a] == s;
          assert a != 0;
          assert x[1..][a - 1] == s;
        }
      }
      StrictlySortedUnique(x[1..], y[1..]);
      assert x == [x[0]] + x[1..];
      assert y == [y[0]] + y[1..];
    }
  }

  /** Reordering the transactions changes neither the months present nor their reference summaries. */
  lemma ExpectedIgnoresOrder(a: seq<Sale>, b: seq<Sale>, monthOf: string -> MonthKey)
    requires multiset(a) == multiset(b)
    ensures MonthsOf(a, monthOf) == MonthsOf(b, monthOf)
    ensures forall k :: Expected(a, monthOf, k) == Expected(b, monthOf, k)
  {
    forall t ensures t in a <==> t in b {
      assert t in a <==> t in multiset(a);
    }
    forall k ensures Expected(a, monthOf, k) == Expected(b, monthOf, k) {
      KindTotalPermutation(a, b, monthOf, k, OnlineRevenue);
      KindTotalPermutation(a, b, monthOf, k, CashRevenue);
      KindTotalPermutation(a, b, monthOf, k, Expense);
    }
  }

  /** The report does not depend on the order in which the transactions were stored. */
  lemma SummarizeIgnoresOrder(a: seq<Sale>, b: seq<Sale>, monthOf: string -> MonthKey)
    requires multiset(a) == multiset(b)
    ensures Summarize(a, monthOf) == Summarize(b, monthOf)
  {
    ExpectedIgnoresOrder(a, b, monthOf);
    var ra, rb := Summarize(a, monthOf), Summarize(b, monthOf);
    forall s ensures s in ra <==> s in rb {
      if s in ra {
        var i :| 0 <= i < |ra| && ra[i] == s;
        var k :| k in MonthsOf(a, monthOf) && ra[i] == Expected(a, monthOf, k);
        assert Expected(b, monthOf, k) in rb;
      }
      if s in rb {
        var i :| 0 <= i < |rb| && rb[i] == s;
        var k :| k in MonthsOf(b, monthOf) && rb[i] == Expected(b, monthOf, k);
        assert Expected(a, monthOf, k) in ra;
      }
    }
    StrictlySortedUnique(ra, rb);
  }

  /** Four transactions: three in January 2024, one in February. */
  function ExampleTransactions(): seq<Sale> {
    [ Sale("a", "2024-01-05", OnlineRevenue, 100.0, "", "Manager", 1),
      Sale("b", "2024-01-10", CashRevenue, 50.0, "", "Manager", 2),
      Sale("c", "2024-01-15", Expense, 30.0, "", "Manager", 3),
      Sale("d", "2024-02-01", OnlineRevenue, 200.0, "", "Manager", 4) ]
  }

  lemma ExampleMonths()
    ensures MonthsOf(ExampleTransactions(), IsoMonth) == {YearMonth(2024, 1), YearMonth(2024, 2)}
  {
    assert IsoMonth("2024-01-05") == YearMonth(2024, 1);
    assert IsoMonth("2024-01-10") == YearMonth(2024, 1);
    assert IsoMonth("2024-01-15") == YearMonth(2024, 1);
    assert IsoMonth("2024-02-01") == YearMonth(2024, 2);
  }

  lemma ExampleTotals(kind: string, k: MonthKey)
    requires k == YearMonth(2024, 1) || k == YearMonth(2024, 2)
    ensures KindTotal(ExampleTransactions(), IsoMonth, k, kind) ==
      (if k == YearMonth(2024, 1) then
         (if kind == OnlineRevenue then 100.0 else if kind == CashRevenue then 50.0 else if kind == Expense then 30.0 else 0.0)
       else
         (if kind == OnlineRevenue then 200.0 else 0.0))
  {
    var txs := ExampleTransactions();
    assert IsoMonth("2024-01-05") == YearMonth(2024, 1);
    assert IsoMonth("2024-01-10") == YearMonth(2024, 1);
    assert IsoMonth("2024-01-15") == YearMonth(2024, 1);
    assert IsoMonth("2024-02-01") == YearMonth(2024, 2);
    var c := i requires 0 <= i < 4 => Contribution(txs[i], IsoMonth, k, kind);
    assert txs[..3][..2][..1][..0] == [];
    assert KindTotal(txs[..1], IsoMonth, k, kind) == c(0);
    assert KindTotal(txs[..2], IsoMonth, k, kind) == c(0) + c(1) by { assert txs[..2][..1] == txs[..1]; }
    assert KindTotal(txs[..3], IsoMonth, k, kind) == c(0) + c(1) + c(2) by { assert txs[..3][..2] == txs[..2]; }
    assert KindTotal(txs, IsoMonth, k, kind) == c(0) + c(1) + c(2) + c(3);
  }

  /** The reference rows of the example's two months. */
  lemma ExampleRows()
    ensures Expected(ExampleTransactions(), IsoMonth, YearMonth(2024, 1)) ==
      Summary("Jan 2024", 100.0, 50.0, 150.0, 30.0, 120.0)
    ensures Expected(ExampleTransactions(), IsoMonth, YearMonth(2024, 2)) ==
      Summary("Feb 2024", 200.0, 0.0, 200.0, 0.0, 200.0)
  {
    var jan, feb := YearMonth(2024, 1), YearMonth(2024, 2);
    assert Label(jan) == "Jan 2024" && Label(feb) == "Feb 2024";
    ExampleTotals(OnlineRevenue, jan);
    ExampleTotals(CashRevenue, jan);
    ExampleTotals(Expense, jan);
    ExampleTotals(OnlineRevenue, feb);
    ExampleTotals(CashRevenue, feb);
    ExampleTotals(Expense, feb);
  }

  /** A two-row report strictly ordered by label, holding rows `a` and `b` with
      `a`'s label first, is exactly [a, b]. */
  lemma TwoRowsInLabelOrder(r: seq<Summary>, a: Summary, b: Summary)
    requires |r| == 2 && a in r && b in r
    requires Less(r[0].month, r[1].month)
    requires Less(a.month, b.month)
    ensures r == [a, b]
  {
    LessIrreflexive(a.month);
    if r[0] != a {
      assert r[1] == a && r[0] == b;
      LessAsymmetric(a.month, b.month);
      assert false;
    }
  }

  /** Four transactions in January and February 2024: both months get the expected
      rows, but February comes first, because "Feb" sorts before "Jan". */
  lemma TwoMonthExample()
    ensures Summarize(ExampleTransactions(), IsoMonth) == [
      Summary("Feb 2024", 200.0, 0.0, 200.0, 0.0, 200.0),
      Summary("Jan 2024", 100.0, 50.0, 150.0, 30.0, 120.0)]
  {
    var txs := ExampleTransactions();
    ExampleMonths();
    ExampleRows();
    var r := Summarize(txs, IsoMonth);
    assert |{YearMonth(2024, 1), YearMonth(2024, 2)}| == 2;
    assert Less("Feb 2024", "Jan 2024");
    TwoRowsInLabelOrder(r, Summary("Feb 2024", 200.0, 0.0, 200.0, 0.0, 200.0),
      Summary("Jan 2024", 100.0, 50.0, 150.0, 30.0, 120.0));
  }
}

=== FILE: sales.dfy ===
/** The transaction record shared by the sales API and the dashboard. */
module Sales {

  /** The three transaction types the form offers.  The API stores whatever type
      string it is sent, so other strings can occur in the stored list. */
  const OnlineRevenue: string := "online-revenue"
  const CashRevenue: string := "cash-revenue"
  const Expense: string := "expense"

  /** A stored transaction.  `date` is the business date typed by the user;
      `timestamp` is the server's receipt time, in milliseconds; `kind` is the
      source's `type` field. */
  datatype Sale = Sale(
    id: string,
    date: string,
    kind: string,
    amount: real,
    description: string,
    addedBy: string,
    timestamp: int)

  /** The ids of a list of sales. */
  function Ids(sales: seq<Sale>): set<string> {
    set s | s in sales :: s.id
  }

  /** No two sales share an id. */
  predicate UniqueIds(sales: seq<Sale>) {
    forall i, j :: 0 <= i < j < |sales| ==> sales[i].id != sales[j].id
  }
}

=== FILE: sales_route.dfy ===
/** The transactions API: a JSON data file holding `{sales: [...]}`, created
    lazily, read whole by GET and rewritten whole by POST. */
module SalesRoute {
  import opened Wrappers
  import opened Sales
  import opened Http
  import opened Sorting

  /** What the data file can hold. */
  datatype DataFile =
    | Document(sales: seq<Sale>)   // a JSON object whose `sales` is a list of transactions
    | Unusable                     // not JSON, or JSON without a `sales` list

  /** The data directory: the file when it exists, and whether writing to it
      (creating the directory and the file if need be) succeeds. */
  datatype Disk = Disk(file: Option<DataFile>, writable: bool)

  /** The fields of a POST body.  The route copies them without checking them. */
  datatype SaleInput = SaleInput(date: string, kind: string, amount: real, description: string, addedBy: string)

  const SaveFailed: string := "Failed to save transaction"

  /** The transactions the data file holds, when it holds a usable list. */
  function StoredSales(d: Disk): Option<seq<Sale>> {
    if d.file.Some? && d.file.value.Document? then Some(d.file.value.sales) else None
  }

  /** The ids already in use in the data file. */
  function StoredIds(d: Disk): set<string> {
    if StoredSales(d).Some? then Ids(StoredSales(d).value) else {}
  }

  /** `ensureDataFile`: a missing file is created holding an empty list; an
      existing file, usable or not, is left as it is.  The flag says whether the
      call completed; it fails only when the file is missing and cannot be written. */
  function EnsureDataFile(d: Disk): (r: (Disk, bool))
    ensures r.1 <==> d.file.Some? || d.writable
    ensures r.1 ==> r.0.file.Some?
    ensures d.file.Some? || !d.writable ==> r.0 == d
    ensures d.file.None? && d.writable ==> StoredSales(r.0) == Some([])
    ensures r.0.writable == d.writable
  {
    if d.file.Some? then (d, true)
    else if d.writable then (d.(file := Some(Document([]))), true)
    else (d, false)
  }

  /** The order GET lists transactions in: newest timestamp first. */
  predicate NewestFirst(a: Sale, b: Sale) {
    a.timestamp >= b.timestamp
  }

  lemma NewestFirstIsTotalPreorder()
    ensures Total(NewestFirst)
    ensures Transitive(NewestFirst)
  {
  }

  /** The stored list reordered newest first, as GET's sort leaves it. */
  function SortNewestFirst(sales: seq<Sale>): (r: seq<Sale>)
    ensures multiset(r) == multiset(sales)
    ensures forall i, j :: 0 <= i < j < |r| ==> r[i].timestamp >= r[j].timestamp
  {
    NewestFirstIsTotalPreorder();
    var r := SortBy(sales, NewestFirst);
    SortedPairwise(r, NewestFirst);
    r
  }

  /** `GET /api/sales`: always status 200.  The listed transactions are the stored
      ones, newest first; when the file cannot be created, read or parsed the list
      is empty.  The only change to the disk is the lazy creation of the file. */
  function Get(d: Disk): (r: (Disk, Response))
    ensures r.0 == EnsureDataFile(d).0
    ensures r.1.status == 200 && r.1.body.SalesList?
    ensures StoredSales(r.0).Some? ==>
      && multiset(r.1.body.sales) == multiset(StoredSales(r.0).value)
      && forall i, j :: 0 <= i < j < |r.1.body.sales| ==> r.1.body.sales[i].timestamp >= r.1.body.sales[j].timestamp
    ensures StoredSales(r.0).None? ==> r.1.body.sales == []
  {
    var (d', ok) := EnsureDataFile(d);
    if !ok then (d', Response(200, SalesList([])))
    else
      match d'.file.value
      case Unusable => (d', Response(200, SalesList([])))
      case Document(sales) => (d', Response(200, SalesList(SortNewestFirst(sales))))
  }

  /** The record POST stores: the body's fields unchanged, a fresh id and the receipt time. */
  function NewSale(body: SaleInput, id: string, now: int): (s: Sale)
    ensures s.date == body.date && s.kind == body.kind && s.amount == body.amount
    ensures s.description == body.description && s.addedBy == body.addedBy
    ensures s.id == id && s.timestamp == now
  {
    Sale(id, body.date, body.kind, body.amount, body.description, body.addedBy, now)
  }

  /** Whether a POST can complete: the body parsed, the file can be written, and
      it is missing (so it is created empty) or holds a usable list. */
  predicate CanSave(d: Disk, body: Option<SaleInput>) {
    body.Some? && d.writable && d.file != Some(Unusable)
  }

  /** `POST /api/sales`.  `body` is None when the request body is not JSON; `id`
      is the fresh identifier drawn for the record and `now` the server clock.
      On success the new record is appended after every stored one and returned
      with status 201; on any failure the response is 500 and the stored list is
      what it was (apart from the lazy creation of the file). */
  function Post(d: Disk, body: Option<SaleInput>, id: string, now: int): (r: (Disk, Response))
    requires id !in StoredIds(d)
    ensures r.1.status == 201 <==> CanSave(d, body)
    ensures CanSave(d, body) ==>
      var before := StoredSales(EnsureDataFile(d).0).value;
      var sale := NewSale(body.value, id, now);
      && StoredSales(r.0) == Some(before + [sale])
      && r.1 == Response(201, SaleCreated(sale))
      && sale.id !in Ids(before)
    ensures !CanSave(d, body) ==> r == (EnsureDataFile(d).0, Response(500, Message(SaveFailed)))
    ensures r.0.writable == d.writable
  {
    var failed := Response(500, Message(SaveFailed));
    var (d', ok) := EnsureDataFile(d);
    if !ok || body.None? then (d', failed)
    else
      var sale := NewSale(body.value, id, now);
      match d'.file.value
      case Unusable => (d', failed)
      case Document(sales) =>
        if !d'.writable then (d', failed)
        else (d'.(file := Some(Document(sales + [sale]))), Response(201, SaleCreated(sale)))
  }

  // ---------------------------------------------------------------------------
  // Properties of the store.
  // ---------------------------------------------------------------------------

  /** A store that does not exist yet lists nothing, and GET creates it empty when it can. */
  lemma FreshStoreListsNothing(writable: bool)
    ensures var r := Get(Disk(None, writable));
      && r.1 == Response(200, SalesList([]))
      && (writable ==> StoredSales(r.0) == Some([]))
  {
  }

  /** GET changes nothing once the file exists: a second GET sees the same disk and
      lists the same transactions. */
  lemma GetIsIdempotent(d: Disk)
    ensures Get(Get(d).0) == Get(d)
  {
  }

  /** A successful POST keeps every stored record in place and adds the new one
      after them, with an id not used before; ids stay unique. */
  lemma PostAppends(d: Disk, body: Option<SaleInput>, id: string, now: int)
    requires id !in StoredIds(d)
    requires CanSave(d, body)
    requires StoredSales(d).Some? ==> UniqueIds(StoredSales(d).value)
    ensures var before := StoredSales(EnsureDataFile(d).0).value;
      var stored := StoredSales(Post(d, body, id, now).0).value;
      && |stored| == |before| + 1
      && stored[..|before|] == before
      && stored[|before|] == NewSale(body.value, id, now)
      && UniqueIds(stored)
  {
    var before := StoredSales(EnsureDataFile(d).0).value;
    var stored := StoredSales(Post(d, body, id, now).0).value;
    assert stored == before + [NewSale(body.value, id, now)];
    forall i, j | 0 <= i < j < |stored| ensures stored[i].id != stored[j].id {
      if j == |before| {
        assert stored[i] in before;
      }
    }
  }

  /** After a successful POST, GET lists the earlier transactions and the new one, newest first. */
  lemma ListAfterPost(d: Disk, body: Option<SaleInput>, id: string, now: int)
    requires id !in StoredIds(d)
    requires CanSave(d, body)
    ensures var before := StoredSales(EnsureDataFile(d).0).value;
      var listed := Get(Post(d, body, id, now).0).1.body.sales;
      && multiset(listed) == multiset(before) + multiset{NewSale(body.value, id, now)}
      && forall i, j :: 0 <= i < j < |listed| ==> listed[i].timestamp >= listed[j].timestamp
  {
  }

  /** The records a run of successful POSTs creates, in order. */
  function NewSales(bodies: seq<SaleInput>, ids: seq<string>, times: seq<int>): seq<Sale>
    requires |bodies| == |ids| == |times|
  {
    seq(|bodies|, i requires 0 <= i < |bodies| => NewSale(bodies[i], ids[i], times[i]))
  }

  /** Successive POSTs of the given bodies, each with its own fresh id and time. */
  function PostAll(d: Disk, bodies: seq<SaleInput>, ids: seq<string>, times: seq<int>): Disk
    requires |bodies| == |ids| == |times|
    requires Distinct(ids)
    requires forall i :: 0 <= i < |ids| ==> ids[i] !in StoredIds(d)
    decreases |bodies|
  {
    if |bodies| == 0 then d
    else
      var d1 := Post(d, Some(bodies[0]), ids[0], times[0]).0;
      PostKeepsFreshIds(d, bodies, ids, times);
      PostAll(d1, bodies[1..], ids[1..], times[1..])
  }

  lemma PostKeepsFreshIds(d: Disk, bodies: seq<SaleInput>, ids: seq<string>, times: seq<int>)
    requires 0 < |bodies| == |ids| == |times|
    requires Distinct(ids)
    requires forall i :: 0 <= i < |ids| ==> ids[i] !in StoredIds(d)
    ensures Distinct(ids[1..])
    ensures forall i :: 0 <= i < |ids| - 1 ==>
      ids[1..][i] !in StoredIds(Post(d, Some(bodies[0]), ids[0], times[0]).0)
  {
    var d1 := Post(d, Some(bodies[0]), ids[0], times[0]).0;
    forall i | 0 <= i < |ids| - 1 ensures ids[1..][i] !in StoredIds(d1) {
      assert ids[1..][i] == ids[i + 1] != ids[0];
      if CanSave(d, Some(bodies[0])) {
        var before := StoredSales(EnsureDataFile(d).0).value;
        assert StoredIds(d1) == Ids(before) + {ids[0]};
        assert Ids(before) <= StoredIds(d);
      }
    }
  }

  /** A run of successful POSTs leaves the earlier records in place, followed by
      the new ones in the order they were posted: N successive appends. */
  lemma {:induction false} PostAllAppends(d: Disk, bodies: seq<SaleInput>, ids: seq<string>, times: seq<int>)
    requires |bodies| == |ids| == |times|
    requires Distinct(ids)
    requires forall i :: 0 <= i < |ids| ==> ids[i] !in StoredIds(d)
    requires d.writable && StoredSales(d).Some?
    ensures StoredSales(PostAll(d, bodies, ids, times)) ==
      Some(StoredSales(d).value + NewSales(bodies, ids, times))
    decreases |bodies|
  {
    var before := StoredSales(d).value;
    if |bodies| == 0 {
      assert NewSales(bodies, ids, times) == [];
      assert before + [] == before;
    } else {
      var d1 := Post(d, Some(bodies[0]), ids[0], times[0]).0;
      var first := NewSale(bodies[0], ids[0], times[0]);
      PostKeepsFreshIds(d, bodies, ids, times);
      PostAllAppends(d1, bodies[1..], ids[1..], times[1..]);
      assert StoredSales(d1) == Some(before + [first]);
      assert EnsureDataFile(d1).0 == d1;
      assert NewSales(bodies, ids, times) == [first] + NewSales(bodies[1..], ids[1..], times[1..]);
      assert before + [first] + NewSales(bodies[1..], ids[1..], times[1..])
          == before + NewSales(bodies, ids, times);
    }
  }
}

=== FILE: sorting.dfy ===
/** Stable insertion sort over sequences, parameterised by a comparison.

    `le(a, b)` means "a may come before b".  The comparison must be total (any
    two elements can be ordered one way or the other); transitivity is needed
    only to turn adjacent order into order between any two positions. */
module Sorting {

  ghost predicate Total<T(!new)>(le: (T, T) -> bool) {
    forall a, b :: le(a, b) || le(b, a)
  }

  ghost predicate Transitive<T(!new)>(le: (T, T) -> bool) {
    forall a, b, c :: le(a, b) && le(b, c) ==> le(a, c)
  }

  /** Every element may come before its successor. */
  predicate SortedBy<T>(s: seq<T>, le: (T, T) -> bool) {
    forall i :: 0 < i < |s| ==> le(s[i - 1], s[i])
  }

  /** No element occurs twice. */
  predicate Distinct<T(==)>(s: seq<T>) {
    forall i, j :: 0 <= i < j < |s| ==> s[i] != s[j]
  }

  /** Places `x` in front of the first element it may precede. */
  function Insert<T(!new)>(x: T, s: seq<T>, le: (T, T) -> bool): (r: seq<T>)
    requires Total(le)
    requires SortedBy(s, le)
    ensures SortedBy(r, le)
    ensures multiset(r) == multiset(s) + multiset{x}
    ensures |r| == |s| + 1
    ensures r[0] == x || (|s| > 0 && r[0] == s[0])
  {
    if |s| == 0 then [x]
    else if le(x, s[0]) then [x] + s
    else
      assert s == [s[0]] + s[1..];
      [s[0]] + Insert(x, s[1..], le)
  }

  /** Insertion sort: a permutation of `s` in which every element may precede the next. */
  function SortBy<T(!new)>(s: seq<T>, le: (T, T) -> bool): (r: seq<T>)
    requires Total(le)
    ensures SortedBy(r, le)
    ensures multiset(r) == multiset(s)
    ensures |r| == |s|
  {
    if |s| == 0 then []
    else
      assert s == [s[0]] + s[1..];
      Insert(s[0], SortBy(s[1..], le), le)
  }

  /** Under a transitive comparison, adjacent order is order between any two positions. */
  lemma {:induction false} SortedPairwise<T(!new)>(s: seq<T>, le: (T, T) -> bool)
    requires Transitive(le)
    requires SortedBy(s, le)
    ensures forall i, j :: 0 <= i < j < |s| ==> le(s[i], s[j])
  {
    forall i, j | 0 <= i < j < |s|
      ensures le(s[i], s[j])
    {
      SortedChain(s, le, i, j);
    }
  }

  lemma {:induction false} SortedChain<T(!new)>(s: seq<T>, le: (T, T) -> bool, i: int, j: int)
    requires Transitive(le)
    requires SortedBy(s, le)
    requires 0 <= i < j < |s|
    ensures le(s[i], s[j])
    decreases j - i
  {
    if i + 1 < j {
      SortedChain(s, le, i, j - 1);
    }
  }

  /** A sequence has no repeated element exactly when no element is counted twice by its multiset. */
  lemma {:induction false} DistinctByMultiset<T>(s: seq<T>)
    ensures Distinct(s) <==> forall x :: multiset(s)[x] <= 1
  {
    if |s| > 0 {
      var p := s[..|s| - 1];
      var last := s[|s| - 1];
      assert s == p + [last];
      DistinctByMultiset(p);
      if Distinct(s) {
        assert Distinct(p) by {
          forall i, j | 0 <= i < j < |p| ensures p[i] != p[j] { assert p[i] == s[i] && p[j] == s[j]; }
        }
        assert last !in p;
        forall x ensures multiset(s)[x] <= 1 {
          assert multiset(s)[x] == multiset(p)[x] + multiset([last])[x];
        }
      } else {
        var i, j :| 0 <= i < j < |s| && s[i] == s[j];
        if j == |s| - 1 {
          assert p[i] == last;
          assert multiset(s)[last] == multiset(p)[last] + 1;
        } else {
          assert p[i] == p[j];
          assert !Distinct(p);
          var x :| multiset(p)[x] > 1;
          assert multiset(s)[x] == multiset(p)[x] + multiset([last])[x];
        }
      }
    }
  }

  /** Reordering a sequence cannot create or remove a repetition. */
  lemma PermutationKeepsDistinct<T>(s: seq<T>, t: seq<T>)
    requires multiset(s) == multiset(t)
    requires Distinct(s)
    ensures Distinct(t)
  {
    DistinctByMultiset(s);
    DistinctByMultiset(t);
  }
}

=== FILE: transaction_form.dfy ===
/** The add-transaction form: it validates its fields into an ordered list of
    messages and hands the transaction on only when that list is empty.
    This is the submit handler called directly on the form's state. In a browser the
    inputs' own constraints (a required date; a required, numeric, non-negative amount)
    stop the submit before the handler runs, so an empty or non-numeric amount never
    reaches it through the page. */
module TransactionForm {
  import opened Wrappers
  import opened Sales

  /** A JavaScript number, as `Number(...)` or `Number.parseFloat(...)` returns it. */
  datatype Num = Finite(value: real) | PosInfinity | NegInfinity | NaN

  /** JavaScript's `n <= 0`, which is false for NaN. */
  predicate AtMostZero(n: Num) {
    match n
    case Finite(v) => v <= 0.0
    case NegInfinity => true
    case _ => false
  }

  const AmountRequired: string := "Amount is required"
  const DateRequired: string := "Date is required"
  const AmountNotPositive: string := "Amount must be greater than 0"

  /** The messages in the order the form reports them. */
  const Messages: seq<string> := [AmountRequired, DateRequired, AmountNotPositive]

  /** Position of a message in `Messages`. */
  function Rank(message: string): nat {
    if message == AmountRequired then 0 else if message == DateRequired then 1 else 2
  }

  /** The form's fields as typed; `amount` is still text. */
  datatype Fields = Fields(date: string, kind: string, amount: string, description: string)

  /** The form's state: its fields and the messages it shows. */
  datatype Form = Form(fields: Fields, errors: seq<string>)

  /** What the form hands to the dashboard. */
  datatype Submission = Submission(date: string, kind: string, amount: Num, description: string)

  /** The messages for the fields, each present exactly when its check fails, in a
      fixed order.  `toNumber` is JavaScript's `Number` on the amount text. */
  function Validate(f: Fields, toNumber: string -> Num): (errs: seq<string>)
    ensures AmountRequired in errs <==> f.amount == ""
    ensures DateRequired in errs <==> f.date == ""
    ensures AmountNotPositive in errs <==> AtMostZero(toNumber(f.amount))
    ensures forall i :: 0 <= i < |errs| ==> errs[i] in Messages
    ensures forall i, j :: 0 <= i < j < |errs| ==> Rank(errs[i]) < Rank(errs[j])
  {
    (if f.amount == "" then [AmountRequired] else [])
    + (if f.date == "" then [DateRequired] else [])
    + (if AtMostZero(toNumber(f.amount)) then [AmountNotPositive] else [])
  }

  /** The form as it is reset after a submission: `today`'s date, online revenue,
      empty amount and description, no messages. */
  function Blank(today: string): Form {
    Form(Fields(today, OnlineRevenue, "", ""), [])
  }

  /** `handleSubmit`.  With messages, the form keeps its fields, shows the messages
      and submits nothing; without, it submits the fields with the amount parsed by
      `parseFloat` and resets.  `today` is the clock's date at the reset. */
  function HandleSubmit(f: Form, today: string, toNumber: string -> Num, parseFloat: string -> Num): (r: (Form, Option<Submission>))
    ensures r.1.Some? <==> Validate(f.fields, toNumber) == []
    ensures r.1.None? ==> r.0 == f.(errors := Validate(f.fields, toNumber)) && r.0.errors != []
    ensures r.1.Some? ==>
      && r.1.value == Submission(f.fields.date, f.fields.kind, parseFloat(f.fields.amount), f.fields.description)
      && r.0 == Blank(today)
  {
    var errs := Validate(f.fields, toNumber);
    if |errs| > 0 then (f.(errors := errs), None)
    else
      var d := f.fields;
      (Blank(today), Some(Submission(d.date, d.kind, parseFloat(d.amount), d.description)))
  }

  // ---------------------------------------------------------------------------
  // Properties.
  // ---------------------------------------------------------------------------

  /** An empty amount reaching the handler is reported twice over, since `Number("")` is 0. */
  lemma EmptyAmountReportedTwice(f: Fields, toNumber: string -> Num)
    requires f.amount == ""
    requires toNumber("") == Finite(0.0)
    ensures Validate(f, toNumber)[..2] == [AmountRequired, if f.date == "" then DateRequired else AmountNotPositive]
    ensures AmountNotPositive in Validate(f, toNumber)
  {
  }

  /** An amount that reads as NaN passes the "greater than 0" check, since NaN <= 0 is
      false; with a date the handler submits it. */
  lemma NonNumericAmountPasses(f: Fields, toNumber: string -> Num)
    requires f.amount != "" && f.date != ""
    requires toNumber(f.amount) == NaN
    ensures Validate(f, toNumber) == []
  {
  }

  /** Whatever is submitted had an amount, a date and an amount not at most zero. */
  lemma SubmissionsPassedChecks(f: Form, today: string, toNumber: string -> Num, parseFloat: string -> Num)
    requires HandleSubmit(f, today, toNumber, parseFloat).1.Some?
    ensures f.fields.amount != "" && f.fields.date != ""
    ensures !AtMostZero(toNumber(f.fields.amount))
  {
    var errs := Validate(f.fields, toNumber);
    assert errs == [];
  }

  /** The handler applied to the freshly reset form submits nothing: it records the
      empty-amount messages. */
  lemma ResetFormCannotBeResubmitted(today: string, later: string, toNumber: string -> Num, parseFloat: string -> Num)
    requires toNumber("") == Finite(0.0)
    ensures var r := HandleSubmit(Blank(today), later, toNumber, parseFloat);
      && r.1 == None
      && r.0.fields == Blank(today).fields
      && r.0.errors[0] == AmountRequired
      && AmountNotPositive in r.0.errors
  {
  }
}

=== FILE: wrappers.dfy ===
/** The optional-value datatype shared by the rest of the model. */
module Wrappers {

  /** A value that may be absent: an unset environment variable, a missing
      data file, a request body that could not be parsed. */
  datatype Option<+T> = None | Some(value: T)
}
